=== FILE: README.md ===
# outpostkit core, modelled in Dafny

A model of the core of the `outpostkit` Python SDK, with proofs about it. The model covers:

- the retrying HTTP transport of the API client: its retry policy, the sleep computation and the bounded retry loop;
- how the HTTP client is built (headers, base URL, timeout, transport);
- the two status checks that turn a failing response into an exception, one for the API client and one for prediction endpoints;
- `Predictor.infer`;
- the Git LFS client: the batch request, object attributes computed from a file, and upload and download;
- the `basic` and `multipart-basic` transfer adapters;
- `extract_commit_hash`;
- `split_full_name`;
- the form-field converters of the inference server templates.

Nothing here performs I/O. Servers, the wrapped transport, the wall clock and the random jitter sign are inputs:

- A server is an oracle from the requests sent so far to the reply.
- Hashes (`sha256`, base64 of `md5`), JSON decoding, and Python's `int()`, `float()` and `datetime.fromisoformat` are function parameters. Each maps its input to a result, or to `None` where the Python function raises.
- Response headers are a map keyed by lower-case name. That is how the case-insensitive header mappings of `httpx` and `requests` look a name up.

Modules:

| file | module | models |
|---|---|---|
| wrappers.dfy | `Wrappers` | `Option`, `Result`, `Outcome` |
| text.dfy | `Text` | `str.strip`, `isdigit`, `lower`, `partition`, `rstrip`, `join` |
| http.dfy | `Http` | JSON values, requests, responses, Python truthiness |
| retry.dfy | `Retry` | `RetryTransport` in `outpostkit/client.py` |
| api_client.dfy | `ApiClient` | `_build_httpx_client` and `_raise_for_status` in `outpostkit/client.py` |
| prediction.dfy | `Prediction` | `_raise_for_status` and `Predictor.infer` in `outpostkit/predictor.py` and `outpostkit/endpoints.py` (identical code) |
| lfs_types.dfy | `LfsTypes` | batch reply shapes and LFS errors |
| lfs_transfer.dfy | `LfsTransfer` | `outpostkit/repository/lfs/transfer.py` |
| lfs_client.dfy | `LfsClient` | `outpostkit/repository/lfs/client.py` |
| git_utils.dfy | `GitUtils` | `outpostkit/_utils/git.py` |
| name_utils.dfy | `NameUtils` | `split_full_name` in `outpostkit/_utils/__init__.py` |
| form_fields.dfy | `FormFields` | the `form_field_to_*` converters |

The converters exist in four copies:

- `outpostkit/inference/helpers/form.py`
- `outpostkit/template_gen/helpers/form.py`
- `outpostkit/inference/templates/utils.py`
- `outpostkit/template_gen/templates/utils.py`

The two `helpers/form.py` copies are identical, and so are the two `templates/utils.py` copies. The copies differ in how the parse error is chained (`from e`, `from None`, `from ValueError`). That changes nothing the caller sees, with one exception. In the `templates/utils.py` copies, `form_field_to_json` writes `from json.JSONDecodeError`. Python instantiates that class with no arguments, which raises `TypeError` in place of the 400 `HTTPException` (see Findings). `FormFields.ToJsonAsWritten` models that behaviour. Otherwise the converters are modelled once, and the rows below cite each copy for the properties it shares.

Behaviour of the code that the model follows:

- The API client's status check does not handle `text/html`. Only the prediction check does.
- The API client's JSON message is always the default one (see Findings).
- The transfer adapter comes from a fixed table. An unknown name raises `ValueError`, and a reply without `transfer` raises `KeyError`.
- Multipart parts are sent in list order.
- The backoff is not clamped at zero. A negative delay makes `time.sleep` raise.

## Model

| member | source | states |
|---|---|---|
| Retry.NewRetryTransport | outpostkit/client.py:117-148 | a jitter ratio outside [0, 0.5] is refused with `ValueError` and every other ratio is accepted; attempts, cap, factor and ratio are kept as given; the method and status sets are the given collections as sets, or the defaults when missing or empty |
| Retry.RetrySettingsAsSets | outpostkit/client.py:137-146 | only the members of the method and status collections matter: order and repetition do not, and an empty collection builds the same transport as a missing one |
| Retry.SetOrDefault | outpostkit/client.py:137-146 | a missing or empty method/status collection falls back to the default set; a non-empty one replaces it exactly |
| Retry.DefaultRetryTransport | outpostkit/client.py:107-126 | the defaults: 10 attempts, 60 s cap, factor 0.1, jitter 0.1; the retried methods are exactly HEAD, GET, PUT, DELETE, OPTIONS and TRACE (so not POST or PATCH); codes 429, 503, 504 |
| Retry.JitterRatioBoundaries | outpostkit/client.py:130-133 | 0 and 0.5 are accepted; 0.6 and -0.1 are refused |
| Retry.CalculateSleep | outpostkit/client.py:150-169 | with a non-negative factor, a valid jitter ratio and a non-negative cap, the delay is never negative |
| Retry.JitterBounds | outpostkit/client.py:166-168 | the jittered backoff is `b * (1 ± jitter_ratio)` and lies between the two extremes |
| Retry.RetryAfterSecondsExact | outpostkit/client.py:153-156 | a digits-only `Retry-After`, whatever whitespace surrounds it, is slept for exactly that many seconds, uncapped |
| Retry.RetryAfterDateCapped | outpostkit/client.py:158-162 | a future `Retry-After` date is slept until, but never longer than `max_backoff_wait` |
| Retry.BackoffWithinJitterBounds | outpostkit/client.py:163-169 | without a usable `Retry-After` the delay is the capped jittered backoff, between the capped jitter extremes |
| Retry.RetryLoop | outpostkit/client.py:177-195 | the loop calls again only while the last status is retryable and attempts remain (at least one call, at most `max_attempts`); each discarded response is closed; each sleep is the non-negative delay computed after that response; a negative delay ends the loop with the `time.sleep` error |
| Retry.HandleRequest | outpostkit/client.py:171-195 | non-retryable methods make exactly one call; otherwise the calls stop at the first non-retryable status or after `max_attempts` (at least one) calls; every discarded response was retryable and is closed; the i-th sleep is `SleepAfter` of i, the policy's delay (`calculate_sleep` with i + 1 attempts made) computed from the (i+1)-th response's headers and the clock and jitter of that moment, and is never negative; a negative delay ends with the `time.sleep` error |
| ApiClient.BuildClient | outpostkit/client.py:230-268 | User-Agent `outpost-python/<version>`; Authorization `Bearer <token>` iff the argument or environment token is non-empty, the argument winning; base URL from argument, environment, then default, never empty; default timeout (5, 30, 30, 10); the default retry transport |
| ApiClient.EnvironmentAsFallback | outpostkit/client.py:241-250 | a missing token or base URL argument builds the same client as passing the environment's value as the argument; when both arguments are non-empty, the environment makes no difference |
| ApiClient.RaiseForStatus | outpostkit/client.py:271-302 | fails iff the status is in 400..599; a missing `content-type` is a `KeyError`; the failure carries the status; never a prediction exception |
| ApiClient.ContentTypeParametersIgnored | outpostkit/client.py:273 | parameters after ";" in the content type never change the outcome |
| ApiClient.JsonBodyMessage | outpostkit/client.py:280-291 | a decodable JSON error body gives the default message; an undecodable one gives "Failed to decode json body." |
| ApiClient.TextAndOtherBodies | outpostkit/client.py:292-300 | `text/plain` carries the body text; any other media type is reported as unhandled by name |
| ApiClient.UnhandledMediaType | outpostkit/client.py:273-300 | any media type without ";" other than `application/json` and `text/plain` (so `text/html`, and `Text/Plain` since the match is case-sensitive) is reported as unhandled under its own name |
| ApiClient.MessageFieldIgnored | outpostkit/client.py:283-288 | for any error status, a JSON body `{"message": m}` (m other than the default) yields the default message as written, and m as intended |
| ApiClient.RaiseForStatusIntended | outpostkit/client.py:280-288 | fails on the same responses as the code; for an error status with a decodable `application/json` body the message is the body's "message" string field (the default message when there is none); every other outcome is the code's |
| Prediction.RaiseForPredictionStatus | outpostkit/predictor.py:10-50 | fails iff the status is in 400..599; never the API client's exception; any attached data is the decoded body, with message "Prediction request failed." |
| Prediction.PredictionJsonPayload | outpostkit/endpoints.py:23-39 | any decodable JSON body, object or not, becomes the exception's data; an undecodable one is a decode error |
| Prediction.PredictionTextBodies | outpostkit/predictor.py:36-48 | `text/plain` and `text/html` carry the raw body text; other media types are named as unhandled |
| Prediction.StatusChecksAgreeOnFailure | outpostkit/endpoints.py:14-54 | the prediction check and the API client check fail on the same responses and agree on when decoding fails |
| Prediction.InferHeaders | outpostkit/predictor.py:80-83 | the bearer header from `str(token)` is always present; the caller's headers are all kept and win on `authorization` |
| Prediction.Infer | outpostkit/endpoints.py:73-91 | no endpoint: nothing is sent and "No endpoint configured" is raised; otherwise one POST of the body to endpoint + path with those headers; a status outside 400..599 returns that reply, and an error status fails with exactly the exception of the prediction status check |
| Prediction.InferFailsLikeClientCheck | outpostkit/endpoints.py:73-91 | with an endpoint, `infer` fails exactly on the replies on which the API client's status check would fail |
| LfsTransfer.Is2xxRange | outpostkit/repository/lfs/transfer.py:30 | `status // 100 == 2` holds exactly for 200..299 |
| LfsTransfer.VerifyObject | outpostkit/repository/lfs/transfer.py:52-67 | a missing oid or size is a `KeyError` before anything is sent; otherwise one POST of `{oid, size}`, which passes iff the reply is 2xx, and otherwise fails with the reply's status and text |
| LfsTransfer.VerifyPassesIff | outpostkit/repository/lfs/transfer.py:62 | the verify step passes exactly when oid and size are present and the reply's `status // 100 == 2` |
| LfsTransfer.BasicUpload | outpostkit/repository/lfs/transfer.py:15-39 | no upload action: nothing is sent and it passes; otherwise a PUT of the file from its position; a non-2xx reply fails with its status and text, before verify; a 2xx reply with no verify action passes after that one request; with a verify action the rest is the verify step; no progress reports |
| LfsTransfer.BasicUploadPassesIff | outpostkit/repository/lfs/transfer.py:21-39 | over every server, the upload passes exactly when there is no upload action, or the PUT's reply is 2xx and, when a verify action exists, oid and size are present and the verify reply is 2xx |
| LfsTransfer.FlattenChunks | outpostkit/repository/lfs/transfer.py:49-50 | a fact about the model's own helpers for the streamed body: splitting the body into chunks of at most n bytes and writing them in order writes exactly the body, which is why the download's sink is stated directly in terms of the reply body |
| LfsTransfer.BasicDownload | outpostkit/repository/lfs/transfer.py:41-50 | a missing `actions` or `download` is a `KeyError`; otherwise one GET, and the sink gains exactly the reply body, whatever the status |
| LfsTransfer.DigestHeader | outpostkit/repository/lfs/transfer.py:180-189 | only "contentMD5" is accepted, and it adds exactly `Content-MD5: base64(md5(data))` |
| LfsTransfer.PartBody | outpostkit/repository/lfs/transfer.py:139-143 | a part reads `size` bytes from `pos` when `size` is positive, otherwise to the end of file; nothing past the end |
| LfsTransfer.PartRequest | outpostkit/repository/lfs/transfer.py:127-152 | a negative position fails the seek; otherwise a missing or empty `want_digest` always gives a request with the part's headers unchanged, a non-empty one other than "contentMD5" is refused, and "contentMD5" adds exactly `Content-MD5: base64(md5(body))`, keeping every other header; method defaults to PUT; the body is the part's bytes |
| LfsTransfer.DigestOfSentBytes | outpostkit/repository/lfs/transfer.py:139-152 | with "contentMD5", the `Content-MD5` header is the digest of exactly the bytes the request carries |
| LfsTransfer.SendPart | outpostkit/repository/lfs/transfer.py:127-159 | nothing is sent if the request cannot be built; otherwise success iff 2xx, returning the reply's ETag |
| LfsTransfer.CommitAndVerify | outpostkit/repository/lfs/transfer.py:107-125 | earlier requests are kept; the commit (default POST, `{oid, parts}`) comes first when present; a non-2xx commit fails with its status and text and sends no verify; after a 2xx or absent commit, the rest is the verify step; a pass with a verify action ends with a 2xx verify request |
| LfsTransfer.PartsFrom | outpostkit/repository/lfs/transfer.py:96-105 | the part loop from part i on, as a recursive definition: earlier requests are kept, at most one request is sent per remaining part, exactly one when the loop runs to the end, and without progress no sizes are reported |
| LfsTransfer.PartsFromCompletes | outpostkit/repository/lfs/transfer.py:96-105 | when the loop runs to the end, every part went out in list order as its request, part k completed with its reply's ETag and number k + 1, and with progress every size was reported in order |
| LfsTransfer.PartsFromStops | outpostkit/repository/lfs/transfer.py:96-159 | when the loop ends early it ended at part k = the number completed: parts before k went out as their requests; a request that cannot be built sends nothing more and gives its error; otherwise part k was the last request, and a non-2xx reply gives its status and text, while a 2xx reply means progress is on and the size is missing (`KeyError`) |
| LfsTransfer.RunParts | outpostkit/repository/lfs/transfer.py:96-105 | the loop computes exactly the recursive definition from part 0 |
| LfsTransfer.SendParts | outpostkit/repository/lfs/transfer.py:96-105 | between none and one request per part is sent after the earlier ones; a run to the end sends every part in list order as its request, completes part k with its reply's ETag and number k + 1, and reports the sizes in order; an early end is described as for `PartsFromStops` |
| LfsTransfer.AfterInit | outpostkit/repository/lfs/transfer.py:96-125 | after the init step: a failure in the parts loop ends the upload with that failure; otherwise the rest is the commit-and-verify step; a pass sends exactly the parts, commit and verify requests, verify last |
| LfsTransfer.MultipartRun | outpostkit/repository/lfs/transfer.py:71-125 | no or empty actions: nothing is sent and it passes; a non-2xx init reply fails with its status after that single request; otherwise the parts, commit and verify follow; without progress no sizes are reported |
| LfsTransfer.MultipartStartsWithInit | outpostkit/repository/lfs/transfer.py:83-95 | when there is an init action, its request is the first one sent |
| LfsTransfer.MultipartSendsNoAbort | outpostkit/repository/lfs/transfer.py:71-125 | a passing upload sends exactly init, parts, commit and verify, so never the abort action |
| LfsTransfer.MultipartUpload | outpostkit/repository/lfs/transfer.py:71-125 | the adapter computes `MultipartRun`; on a pass every part went out in list order from just after the init, the sizes were reported in order, and the commit carries the completed parts |
| LfsClient.AdapterFor | outpostkit/repository/lfs/client.py:22-25 | exactly "basic" and "multipart-basic" have adapters |
| LfsClient.PriorityAdaptersImplemented | outpostkit/repository/lfs/client.py:22-27 | every adapter in the default priority list is implemented, `multipart-basic` first |
| LfsClient.NewClient | outpostkit/repository/lfs/client.py:29-37 | the URL is the given one minus its trailing slashes only; the adapters default to the priority list |
| LfsClient.TrailingSlashIgnored | outpostkit/repository/lfs/client.py:35 | one more trailing slash builds the same client, and building from a client's own URL gives it back |
| LfsClient.BatchUrl | outpostkit/repository/lfs/client.py:131-136 | the batch URL is `<url>/<prefix>/objects/batch` |
| LfsClient.BatchCall | outpostkit/repository/lfs/client.py:52-64 | a POST to the batch URL with LFS content type and accept headers, Authorization iff the token is non-empty, and a payload with exactly transfers, operation, objects and, iff non-empty, ref |
| LfsClient.BatchOperationOnly | outpostkit/repository/lfs/client.py:52-64 | the upload and download batch requests for the same objects differ only in the "operation" field |
| LfsClient.Batch | outpostkit/repository/lfs/client.py:39-71 | a status other than 200 is an `LfsError` carrying it; otherwise the decoded reply |
| LfsClient.AddExtraAttributes | outpostkit/repository/lfs/client.py:156-163 | every extra `k` is added as `x-k`; other attributes such as oid and size are untouched; nothing else is added |
| LfsClient.ReadAll | outpostkit/repository/lfs/client.py:141-147 | the reads hash exactly the bytes from the position to the end, in order, and end at the end of file |
| LfsClient.GetObjectAttrs | outpostkit/repository/lfs/client.py:138-154 | oid is the SHA-256 of the rest of the file and size the final position; a failing read is an error; the file is rewound to 0 in every case |
| LfsClient.SelectAdapter | outpostkit/repository/lfs/client.py:89-94 | a missing `transfer` is a `KeyError`; an unknown one is "Unsupported transfer adapter" |
| LfsClient.FirstObject | outpostkit/repository/lfs/client.py:96 | a missing `objects` is a `KeyError`; an empty list is an `IndexError` |
| LfsClient.Upload | outpostkit/repository/lfs/client.py:73-97 | one batch "upload" request for the hashed object plus extras; batch, adapter and object errors send nothing further; with either adapter the upload is that adapter's run on the whole file from position 0, with the same requests, progress, and pass or failure; success returns the attributes |
| LfsClient.DownloadAfterBatch | outpostkit/repository/lfs/client.py:122-129 | a failed batch, an unsupported or missing adapter name, or a missing or empty object list ends the download with nothing sent and the sink unchanged; otherwise it is the basic download of the first object |
| LfsClient.DownloadWritesBody | outpostkit/repository/lfs/client.py:99-129 | when the batch server answers 200 with a supported adapter and a first object that has a download action, `download` sends exactly one transfer request, the GET of that action, and the sink gains exactly its reply body |
| LfsClient.Download | outpostkit/repository/lfs/client.py:99-129 | one batch "download" request for oid, size and extras; it passes iff the batch, adapter, object and download steps do, and then writes exactly the downloaded body |
| GitUtils.SegmentEnd | outpostkit/_utils/git.py:20 | the `[^/]+` run ends at the first '/' or the end of the path |
| GitUtils.Search | outpostkit/_utils/git.py:20-22 | the leftmost index where `snapshots/<segment>/` matches, or none when no index matches |
| GitUtils.SnapshotSegment | outpostkit/_utils/git.py:20-23 | a segment is found iff the pattern matches somewhere; it is non-empty and has no '/' |
| GitUtils.ExtractCommitHashAsWritten | outpostkit/_utils/git.py:11-24 | a given hash or a missing path is returned unchanged; otherwise a result is derived exactly when a snapshot segment exists and passes the pattern as Python's `$` reads it, and it is that segment |
| GitUtils.ExtractCommitHash | outpostkit/_utils/git.py:8-24 | the same, but a derived result exists iff the segment is exactly 40 lower-case hex digits, and is that segment |
| GitUtils.AsWrittenAgreesOnHashes | outpostkit/_utils/git.py:8-24 | the two agree except where the code returns a 41-character segment ending in a newline |
| GitUtils.TrailingNewlineAccepted | outpostkit/_utils/git.py:24 | for any commit hash h, `snapshots/<h>\n/...` yields h with its newline as written, and nothing when corrected |
| GitUtils.CachePathGivesHash | outpostkit/_utils/git.py:19-24 | a cache path `.../snapshots/<hash>/...` gives back its hash |
| NameUtils.SplitFullName | outpostkit/_utils/__init__.py:6-11 | refused iff there is no '/', with "Could not parse fullname - <s>"; otherwise entity + "/" + name == s and the entity has no '/' |
| NameUtils.SplitJoin | outpostkit/_utils/__init__.py:8-9 | joining an entity without '/' to any name and splitting gives both back |
| NameUtils.SplitExamples | outpostkit/_utils/__init__.py:8 | "/x" gives ("", "x"), "x/" gives ("x", ""), "org/model/v2" gives ("org", "model/v2") |
| NameUtils.NoSlashRefused | outpostkit/_utils/__init__.py:10-11 | "model" is refused with "Could not parse fullname - model" |
| FormFields.ToInt | outpostkit/inference/helpers/form.py:8-26 | text converts iff `int()` accepts it; uploads and unparsable text give "Unable to parse <name> field to int."; absent gives the mandatory error or None; every error has status 400 |
| FormFields.ToFloat | outpostkit/inference/helpers/form.py:29-47 | the same, for `float()` and "float." |
| FormFields.ToBoolean | outpostkit/inference/helpers/form.py:50-70 | text is accepted iff it lower-cases to "true" or "false", giving True exactly for "true"; anything else, uploads included, gives the boolean error with status 400 |
| FormFields.ToJson | outpostkit/inference/helpers/form.py:73-94 | text converts iff it decodes; an absent optional field gives `on_none`; errors have status 400 |
| FormFields.ToJsonAsWritten | outpostkit/inference/templates/utils.py:79-100 | the template copy: undecodable text raises `TypeError`; everything else behaves as `ToJson` |
| FormFields.UndecodableJsonRaisesTypeError | outpostkit/template_gen/templates/utils.py:85-92 | for undecodable text, the intended result is the 400 "Unable to parse <name> field to json." and the template copy's is `TypeError` |
| FormFields.ToStr | outpostkit/inference/helpers/form.py:97-109 | the identity on text; uploads give "Unable to parse <name> field to string." |
| FormFields.BooleanIgnoresCase | outpostkit/template_gen/helpers/form.py:53-61 | letter case never changes the boolean converter's result |
| FormFields.BooleanRoundTrip | outpostkit/template_gen/templates/utils.py:59-67 | Python's "True" and "False" convert back to the booleans they print |
| FormFields.BooleanRefusesPadding | outpostkit/inference/templates/utils.py:59-67 | " true" and "1" are refused |
| FormFields.ConvertersAgree | outpostkit/template_gen/templates/utils.py:14-115 | all five converters fail on an absent field iff it is mandatory, and all refuse uploads; the string converter returns the text |
| Text.StripTrims | outpostkit/client.py:153 | `strip()` only shortens, and leaves no whitespace at either end |
| Text.StripPadded | outpostkit/client.py:153 | `strip()` of a word padded with whitespace is the word |

## Left out

- `handle_async_request` (outpostkit/client.py:197-221) is the same loop as `handle_request`, over an awaited transport. It is not modelled separately.
- The retry transport's `close` and `aclose`, and the transport choice in `_build_httpx_client` (`httpx.HTTPTransport` or `AsyncHTTPTransport`, or the `transport` keyword), are left out. They are delegation with nothing to state. The model records that the retry transport uses the default settings.
- The `Client` class, `outpostkit/constants.py` and `exc.py` are not part of this model. `LfsError` keeps only its status code. The token used by `Predictor.infer` is a parameter.
- `PredictionHTTPException` is imported from `outpostkit/exceptions.py` (outpostkit/predictor.py:6, outpostkit/endpoints.py:10) but is not defined there. As shipped, importing either module raises `ImportError`. Every `Prediction.*` member models the code as it would behave with the class defined, with the fields that its raise sites pass: status code, message and data.
- Retry.CalculateSleep: `isdigit` is modelled on ASCII digits only. Python's `isdigit` also accepts other Unicode digits. `float()` parses the decimal ones, but it raises an uncaught `ValueError` on others such as the superscript '²'. That error path of `calculate_sleep` is not modelled.
- FormFields.ToFloat: `parseFloat` returns a real, so `float("nan")`, `float("inf")` and `float("-inf")`, which the converter accepts, have no value in the model. Reals are exact, and there is no NaN or infinity.
- FormFields.ToJson: the JSON values have no floating-point numbers. A decoded body containing a float is represented only through the `decode` parameter's result, which cannot carry one.
- Retry.CalculateSleep: `fromisoformat(...).astimezone()` and `datetime.now()` are the `parseIso` and clock parameters. Timezone arithmetic is not modelled.
- Retry.HandleRequest: a NaN or infinite delay from floating point is not modelled, because reals are exact.
- All I/O is replaced by oracles and records of the requests sent: HTTP, `time.sleep`, file reads and writes, logging. Exceptions raised by the HTTP libraries themselves (connection errors) are not modelled.
- SHA-256, MD5, base64, JSON decoding and Python's `int()`/`float()` grammars are function parameters.
- `_url_for` query parameters (`urlencode`) are left out. No call site in the core passes any.
- `Path(...).as_posix()` in `extract_commit_hash` is left out. Paths are taken as already normalised POSIX paths: no trailing "/", no "//", no "." segments, and "/" as the only separator. On other paths the model can differ from the code. For `a/snapshots/<hash>/` the code normalises to `a/snapshots/<hash>`, where no "/" follows the hash, and returns `None`. The model returns the hash (`GitUtils.CachePathGivesHash` with an empty `rest`).
- A JSON `null` in a batch reply is treated like a missing key.
- LfsClient.Batch: a 200 reply whose body decodes to JSON other than an object (a list, a string, a number) cannot be represented, because a decoded reply is a record of the fields the client reads. In Python, `response["transfer"]` or `.get` on such a value raises `TypeError` or `AttributeError` in `upload` and `download`.
- Prediction.InferHeaders: header names are merged as exact keys. `requests` compares header names without regard to case, so a caller's `Authorization` replaces the bearer `authorization` header on the wire, while the model keeps both keys.
- Error messages that embed a status code and reply text (the `RuntimeError`s of the transfer adapters) are modelled structurally. `UnexpectedStatus(step, status, text)` carries the parts, and the init step's message (which has no text) is not distinguished.
- LfsClient.GetObjectAttrs: `tell()` after the last read is the larger of the start position and the file length. The oid hashes only the bytes after the start position, while `upload` sends the whole rewound file. The model states this and does not reconcile it.
- `pil_to_b64`, `audio_to_b64` and `np_json_serialize` in the template utilities are left out. They are wrappers around PIL, scipy and numpy.

## Findings

| source | as written | input that shows it | evidently intended | confidence | as-written member | corrected member |
|---|---|---|---|---|---|---|
| outpostkit/_utils/git.py:8 | `re.match` with `^[0-9a-f]{40}$` also accepts forty hex digits followed by a newline, because `$` matches before a final newline | resolved file `snapshots/` + forty `a` + `\n/config.json`, no commit hash | only a segment of exactly forty lower-case hex digits is a commit hash (`fullmatch` or `\Z`) | medium, not executed | GitUtils.TrailingNewlineAccepted | GitUtils.ExtractCommitHash |
| outpostkit/inference/templates/utils.py:90-92 and outpostkit/template_gen/templates/utils.py:90-92 | `raise HTTPException(...) from json.JSONDecodeError` instantiates `JSONDecodeError` with no arguments, which raises `TypeError` | `form_field_to_json("x", "{")` | the 400 `HTTPException` "Unable to parse x field to json.", chained from the decode error (`from e`, as the `helpers/form.py` copies do) | high, not executed | FormFields.UndecodableJsonRaisesTypeError | FormFields.ToJson |
| outpostkit/client.py:285-287 | `getattr(data, "message", ...)` on the decoded JSON dict never finds the key, so every JSON error gets the default message | status 500, `application/json`, body `{"message": "quota exceeded"}` | the body's "message" field becomes the exception message | high, not executed | ApiClient.MessageFieldIgnored | ApiClient.RaiseForStatusIntended |

=== FILE: api_client.dfy ===
/** The API client: the headers, base URL, timeout and transport it is
    built with, and the translation of a failing response into the error
    the caller sees. Environment variables are inputs. */
module ApiClient {
  import opened Wrappers
  import opened Text
  import opened Http
  import Retry

  const DefaultBaseUrl: string := "https://api.outpost.run"

  /** `httpx.Timeout(5.0, read=30.0, write=30.0, connect=5.0, pool=10.0)`. */
  datatype Timeout = Timeout(connect: real, read: real, write: real, pool: real)

  const DefaultTimeout: Timeout := Timeout(5.0, 30.0, 30.0, 10.0)

  /** What the HTTP client is constructed with. */
  datatype ClientConfig = ClientConfig(
    baseUrl: string,
    headers: Headers,
    timeout: Timeout,
    transport: Retry.RetryTransport)

  /** The token in effect: the argument when truthy, else the environment's. */
  function EffectiveToken(apiToken: Option<string>, envToken: Option<string>): Option<string> {
    if Truthy(apiToken) then apiToken else envToken
  }

  /** `_build_httpx_client`. `envToken` is `OUTPOST_API_TOKEN`, `envBaseUrl`
      is `OUTPOST_BASE_URL`, `version` is the package version. */
  function BuildClient(
    version: string,
    apiToken: Option<string>, envToken: Option<string>,
    baseUrl: Option<string>, envBaseUrl: Option<string>,
    timeout: Option<Timeout>): (c: ClientConfig)
    ensures "User-Agent" in c.headers && c.headers["User-Agent"] == "outpost-python/" + version
    ensures c.headers.Keys <= {"User-Agent", "Authorization"}
    ensures "Authorization" in c.headers <==> Truthy(apiToken) || Truthy(envToken)
    ensures Truthy(apiToken) ==> c.headers["Authorization"] == "Bearer " + apiToken.value
    ensures !Truthy(apiToken) && Truthy(envToken) ==> c.headers["Authorization"] == "Bearer " + envToken.value
    ensures Truthy(baseUrl) ==> c.baseUrl == baseUrl.value
    ensures !Truthy(baseUrl) && Truthy(envBaseUrl) ==> c.baseUrl == envBaseUrl.value
    ensures !Truthy(baseUrl) && !Truthy(envBaseUrl) ==> c.baseUrl == DefaultBaseUrl
    ensures c.baseUrl != ""
    ensures timeout.Some? ==> c.timeout == timeout.value
    ensures timeout.None? ==> c.timeout == Timeout(5.0, 30.0, 30.0, 10.0)
    ensures c.transport == Retry.DefaultRetryTransport()
  {
    var userAgent := map["User-Agent" := "outpost-python/" + version];
    var token := EffectiveToken(apiToken, envToken);
    var headers := if Truthy(token) then userAgent["Authorization" := "Bearer " + token.value] else userAgent;
    var url :=
      if Truthy(baseUrl) then baseUrl.value
      else if Truthy(envBaseUrl) then envBaseUrl.value
      else DefaultBaseUrl;
    ClientConfig(url, headers, timeout.GetOr(DefaultTimeout), Retry.DefaultRetryTransport())
  }

  /** The environment variables are fallbacks: a missing token or base URL
      argument behaves exactly like passing the environment's value, and a
      non-empty argument makes the environment irrelevant. */
  lemma EnvironmentAsFallback(version: string, envToken: Option<string>, envBaseUrl: Option<string>,
                              apiToken: Option<string>, otherEnvToken: Option<string>,
                              baseUrl: Option<string>, otherEnvBaseUrl: Option<string>, timeout: Option<Timeout>)
    ensures BuildClient(version, None, envToken, None, envBaseUrl, timeout)
         == BuildClient(version, envToken, None, envBaseUrl, None, timeout)
    ensures Truthy(apiToken) && Truthy(baseUrl) ==>
      BuildClient(version, apiToken, envToken, baseUrl, envBaseUrl, timeout)
        == BuildClient(version, apiToken, otherEnvToken, baseUrl, otherEnvBaseUrl, timeout)
  {
  }

  /** The errors the client's callers can see. */
  datatype ApiError =
    | OutpostHttpException(statusCode: int, message: string)
    | PredictionHttpException(statusCode: int, message: string, data: Option<Json>)
    | OutpostError(message: string)
    | MissingHeader(name: string)  // the `KeyError` of `headers["content-type"]`

  /** The status range `_raise_for_status` treats as failure. */
  predicate IsErrorStatus(status: int) {
    400 <= status < 600
  }

  /** The media type: the `content-type` text before the first ";", not
      trimmed and not lower-cased. */
  function MediaType(contentType: string): string {
    BeforeFirst(contentType, ';')
  }

  const NoMessage: string := "Request failed without message."
  const DecodeFailure: string := "Failed to decode json body."

  function UnhandledMessage(mediaType: string): string {
    "Request failed. Unhandled Content Type: " + mediaType
  }

  /** `_raise_for_status` of the API client. `decode` stands for the JSON
      parser (`None` where it raises `JSONDecodeError`). A parsed JSON value
      has no attribute `message`, so its message is always the default one. */
  function RaiseForStatus(resp: Response, decode: string -> Option<Json>): (r: Outcome<ApiError>)
    ensures r.Fail? <==> IsErrorStatus(resp.status)
    ensures r.Fail? && r.error.OutpostHttpException? ==> r.error.statusCode == resp.status
    ensures r.Fail? ==> !r.error.PredictionHttpException?
    ensures r.Fail? && r.error.MissingHeader? <==> IsErrorStatus(resp.status) && "content-type" !in resp.headers
  {
    if !IsErrorStatus(resp.status) then Pass
    else if "content-type" !in resp.headers then Fail(MissingHeader("content-type"))
    else
      var mediaType := MediaType(resp.headers["content-type"]);
      if mediaType == "application/json" then
        match decode(resp.text)
        case Some(_) => Fail(OutpostHttpException(resp.status, NoMessage))
        case None => Fail(OutpostError(DecodeFailure))
      else if mediaType == "text/plain" then
        Fail(OutpostHttpException(resp.status, resp.text))
      else
        Fail(OutpostHttpException(resp.status, UnhandledMessage(mediaType)))
  }

  /** The message an error body evidently was meant to contribute: its
      "message" field when it is a JSON object holding a string there. */
  function BodyMessage(data: Json): (r: string)
    ensures data.JObject? && "message" in data.fields && data.fields["message"].JString? ==> r == data.fields["message"].s
    ensures !(data.JObject? && "message" in data.fields && data.fields["message"].JString?) ==> r == NoMessage
  {
    if data.JObject? && "message" in data.fields && data.fields["message"].JString? then data.fields["message"].s
    else NoMessage
  }

  /** `_raise_for_status` with the JSON message looked up as a key of the
      decoded object, as the default message suggests was intended. */
  function RaiseForStatusIntended(resp: Response, decode: string -> Option<Json>): (r: Outcome<ApiError>)
    ensures RaiseForStatus(resp, decode).Fail? <==> r.Fail?
    ensures r != RaiseForStatus(resp, decode) ==>
      && "content-type" in resp.headers && MediaType(resp.headers["content-type"]) == "application/json"
      && decode(resp.text).Some?
      && r == Fail(OutpostHttpException(resp.status, BodyMessage(decode(resp.text).value)))
    ensures r.Fail? && !r.error.OutpostHttpException? ==> r == RaiseForStatus(resp, decode)
    ensures IsErrorStatus(resp.status) && "content-type" in resp.headers
            && MediaType(resp.headers["content-type"]) == "application/json" && decode(resp.text).Some? ==>
      r == Fail(OutpostHttpException(resp.status, BodyMessage(decode(resp.text).value)))
  {
    match RaiseForStatus(resp, decode)
    case Pass => Pass
    case Fail(e) =>
      if e.OutpostHttpException? && "content-type" in resp.headers
         && MediaType(resp.headers["content-type"]) == "application/json" && decode(resp.text).Some?
      then Fail(OutpostHttpException(resp.status, BodyMessage(decode(resp.text).value)))
      else Fail(e)
  }

  /** A JSON error body `{"message": m}` (for instance m = "quota exceeded"):
      the code as written reports the default message, the intended version m. */
  lemma MessageFieldIgnored(resp: Response, decode: string -> Option<Json>, message: string)
    requires IsErrorStatus(resp.status)
    requires "content-type" in resp.headers && MediaType(resp.headers["content-type"]) == "application/json"
    requires decode(resp.text) == Some(JObject(map["message" := JString(message)]))
    requires message != NoMessage
    ensures RaiseForStatus(resp, decode) == Fail(OutpostHttpException(resp.status, NoMessage))
    ensures RaiseForStatusIntended(resp, decode) == Fail(OutpostHttpException(resp.status, message))
    ensures RaiseForStatus(resp, decode) != RaiseForStatusIntended(resp, decode)
  {
    JsonBodyMessage(resp, decode);
    var data := decode(resp.text).value;
    assert "message" in data.fields && data.fields["message"] == JString(message);
    assert BodyMessage(data) == message;
  }

  /** A response whose content type is `ct`. */
  function WithContentType(resp: Response, ct: string): Response {
    resp.(headers := resp.headers["content-type" := ct])
  }

  /** Parameters after ";" never change the outcome: only the media type
      before the first ";" is looked at. */
  lemma ContentTypeParametersIgnored(resp: Response, mediaType: string, params: string, decode: string -> Option<Json>)
    requires ';' !in mediaType
    ensures RaiseForStatus(WithContentType(resp, mediaType + ";" + params), decode)
         == RaiseForStatus(WithContentType(resp, mediaType), decode)
  {
    assert BeforeFirst(mediaType + ";" + params, ';') == mediaType by {
      BeforeFirstAt(mediaType, params);
    }
    assert BeforeFirst(mediaType, ';') == mediaType by {
      BeforeFirstAbsent(mediaType);
    }
  }

  lemma {:induction false} BeforeFirstAt(a: string, b: string)
    requires ';' !in a
    ensures BeforeFirst(a + ";" + b, ';') == a
  {
    if a != [] {
      assert (a + ";" + b)[1..] == a[1..] + ";" + b;
      BeforeFirstAt(a[1..], b);
    }
  }

  lemma {:induction false} BeforeFirstAbsent(a: string)
    requires ';' !in a
    ensures BeforeFirst(a, ';') == a
  {
    if a != [] {
      BeforeFirstAbsent(a[1..]);
    }
  }

  /** A decodable JSON error body gives the default message, whatever the
      body holds, even a "message" field; an undecodable one gives the
      decode error instead of the HTTP exception. */
  lemma JsonBodyMessage(resp: Response, decode: string -> Option<Json>)
    requires IsErrorStatus(resp.status)
    requires "content-type" in resp.headers && MediaType(resp.headers["content-type"]) == "application/json"
    ensures decode(resp.text).Some? ==>
      RaiseForStatus(resp, decode) == Fail(OutpostHttpException(resp.status, "Request failed without message."))
    ensures decode(resp.text).None? ==>
      RaiseForStatus(resp, decode) == Fail(OutpostError("Failed to decode json body."))
  {
  }

  /** `text/plain` carries the body text; every other media type, `text/html`
      and differently cased spellings included, is reported as unhandled. */
  lemma TextAndOtherBodies(resp: Response, decode: string -> Option<Json>)
    requires IsErrorStatus(resp.status) && "content-type" in resp.headers
    ensures MediaType(resp.headers["content-type"]) == "text/plain" ==>
      RaiseForStatus(resp, decode) == Fail(OutpostHttpException(resp.status, resp.text))
    ensures var mt := MediaType(resp.headers["content-type"]);
      mt != "text/plain" && mt != "application/json" ==>
      RaiseForStatus(resp, decode) == Fail(OutpostHttpException(resp.status, "Request failed. Unhandled Content Type: " + mt))
  {
  }

  /** Any media type without ";" other than the two handled ones is
      reported as unhandled, under its own name: "text/html" is, and so is
      "Text/Plain", since the comparison is case-sensitive. */
  lemma UnhandledMediaType(resp: Response, decode: string -> Option<Json>, mediaType: string)
    requires IsErrorStatus(resp.status)
    requires ';' !in mediaType && mediaType != "text/plain" && mediaType != "application/json"
    ensures RaiseForStatus(WithContentType(resp, mediaType), decode)
         == Fail(OutpostHttpException(resp.status, UnhandledMessage(mediaType)))
  {
    BeforeFirstAbsent(mediaType);
  }
}

=== FILE: form_fields.dfy ===
/** The form-field converters of the inference server templates
    (`form_field_to_int`, `_float`, `_boolean`, `_json`, `_str`). A field is
    absent, a text value or an uploaded file; every error is an HTTP error
    with status 400. Python's `int()`, `float()` and `json.loads` are
    parameters: they map a text to a value or report that it does not
    parse. */
module FormFields {
  import opened Wrappers
  import opened Text
  import opened Http

  /** A submitted form value: text, or an uploaded file. */
  datatype FormValue = TextValue(s: string) | Upload

  /** FastAPI's `HTTPException(status_code, detail)`. */
  datatype HttpError = HttpError(statusCode: int, detail: string)

  const BadRequest: int := 400

  function MandatoryError(name: string): HttpError {
    HttpError(BadRequest, name + " field is mandatory.")
  }

  function ParseError(name: string, kind: string): HttpError {
    HttpError(BadRequest, "Unable to parse " + name + " field to " + kind + ".")
  }

  function BooleanError(name: string): HttpError {
    HttpError(BadRequest, "Unable to parse " + name + " field to boolean, accepted values are 'true' and 'false'.")
  }

  /** `form_field_to_int`. */
  function ToInt(name: string, value: Option<FormValue>, mandatory: bool, parseInt: string -> Option<int>)
    : (r: Result<Option<int>, HttpError>)
    ensures r.Failure? ==> r.error.statusCode == BadRequest
    ensures value == Some(Upload) ==> r == Failure(ParseError(name, "int"))
    ensures value.None? ==> r == if mandatory then Failure(MandatoryError(name)) else Success(None)
    ensures value.Some? && value.value.TextValue? ==>
      && (r.Success? <==> parseInt(value.value.s).Some?)
      && (r.Success? ==> r.value == parseInt(value.value.s))
      && (r.Failure? ==> r.error == ParseError(name, "int"))
  {
    match value
    case None => if mandatory then Failure(MandatoryError(name)) else Success(None)
    case Some(Upload) => Failure(ParseError(name, "int"))
    case Some(TextValue(s)) =>
      match parseInt(s)
      case None => Failure(ParseError(name, "int"))
      case Some(n) => Success(Some(n))
  }

  /** `form_field_to_float`. */
  function ToFloat(name: string, value: Option<FormValue>, mandatory: bool, parseFloat: string -> Option<real>)
    : (r: Result<Option<real>, HttpError>)
    ensures r.Failure? ==> r.error.statusCode == BadRequest
    ensures value == Some(Upload) ==> r == Failure(ParseError(name, "float"))
    ensures value.None? ==> r == if mandatory then Failure(MandatoryError(name)) else Success(None)
    ensures value.Some? && value.value.TextValue? ==>
      && (r.Success? <==> parseFloat(value.value.s).Some?)
      && (r.Success? ==> r.value == parseFloat(value.value.s))
      && (r.Failure? ==> r.error == ParseError(name, "float"))
  {
    match value
    case None => if mandatory then Failure(MandatoryError(name)) else Success(None)
    case Some(Upload) => Failure(ParseError(name, "float"))
    case Some(TextValue(s)) =>
      match parseFloat(s)
      case None => Failure(ParseError(name, "float"))
      case Some(x) => Success(Some(x))
  }

  /** `form_field_to_boolean`: the text, lower-cased, must be "true" or
      "false". Python's `str.lower` is Unicode-aware, but no character
      outside ASCII lower-cases to a letter of "true" or "false", so the
      ASCII mapping decides the same cases. */
  function ToBoolean(name: string, value: Option<FormValue>, mandatory: bool): (r: Result<Option<bool>, HttpError>)
    ensures r.Failure? ==> r.error.statusCode == BadRequest
    ensures value == Some(Upload) ==> r == Failure(BooleanError(name))
    ensures value.None? ==> r == if mandatory then Failure(MandatoryError(name)) else Success(None)
    ensures value.Some? && value.value.TextValue? ==>
      && (r.Success? <==> AsciiLower(value.value.s) in {"true", "false"})
      && (r.Success? ==> r.value == Some(AsciiLower(value.value.s) == "true"))
      && (r.Failure? ==> r.error == BooleanError(name))
  {
    match value
    case None => if mandatory then Failure(MandatoryError(name)) else Success(None)
    case Some(Upload) => Failure(BooleanError(name))
    case Some(TextValue(s)) =>
      var lower := AsciiLower(s);
      if lower == "true" || lower == "false" then Success(Some(lower == "true"))
      else Failure(BooleanError(name))
  }

  /** `form_field_to_json`: an absent optional field gives `onNone`. */
  function ToJson(name: string, value: Option<FormValue>, mandatory: bool, onNone: Json, decode: string -> Option<Json>)
    : (r: Result<Json, HttpError>)
    ensures r.Failure? ==> r.error.statusCode == BadRequest
    ensures value == Some(Upload) ==> r == Failure(ParseError(name, "json"))
    ensures value.None? ==> r == if mandatory then Failure(MandatoryError(name)) else Success(onNone)
    ensures value.Some? && value.value.TextValue? ==>
      && (r.Success? <==> decode(value.value.s).Some?)
      && (r.Success? ==> r.value == decode(value.value.s).value)
      && (r.Failure? ==> r.error == ParseError(name, "json"))
  {
    match value
    case None => if mandatory then Failure(MandatoryError(name)) else Success(onNone)
    case Some(Upload) => Failure(ParseError(name, "json"))
    case Some(TextValue(s)) =>
      match decode(s)
      case None => Failure(ParseError(name, "json"))
      case Some(j) => Success(j)
  }

  /** What a converter of the template utilities can raise: the intended
      HTTP error, or the `TypeError` of `raise ... from json.JSONDecodeError`,
      which calls the exception class with no arguments while building the
      cause, although its constructor needs three. */
  datatype RaisedError = Http(error: HttpError) | ChainingTypeError

  /** `form_field_to_json` of the template utilities as written: the same as
      `ToJson` except that text which does not decode raises the `TypeError`
      instead of the 400. */
  function ToJsonAsWritten(name: string, value: Option<FormValue>, mandatory: bool, onNone: Json,
                           decode: string -> Option<Json>): (r: Result<Json, RaisedError>)
    ensures value.Some? && value.value.TextValue? && decode(value.value.s).None? ==> r == Failure(ChainingTypeError)
    ensures !(value.Some? && value.value.TextValue? && decode(value.value.s).None?) ==>
      match ToJson(name, value, mandatory, onNone, decode)
      case Success(j) => r == Success(j)
      case Failure(e) => r == Failure(Http(e))
  {
    match value
    case None => if mandatory then Failure(Http(MandatoryError(name))) else Success(onNone)
    case Some(Upload) => Failure(Http(ParseError(name, "json")))
    case Some(TextValue(s)) =>
      match decode(s)
      case None => Failure(ChainingTypeError)
      case Some(j) => Success(j)
  }

  /** Text that is not JSON: the intended converter answers 400 with the
      parse message, while the template copies as written raise a
      `TypeError`, which reaches the client as a server error. */
  lemma UndecodableJsonRaisesTypeError(name: string, s: string, mandatory: bool, onNone: Json,
                                       decode: string -> Option<Json>)
    requires decode(s).None?
    ensures ToJson(name, Some(TextValue(s)), mandatory, onNone, decode) == Failure(ParseError(name, "json"))
    ensures ToJson(name, Some(TextValue(s)), mandatory, onNone, decode).error.statusCode == BadRequest
    ensures ToJsonAsWritten(name, Some(TextValue(s)), mandatory, onNone, decode) == Failure(ChainingTypeError)
  {
  }

  /** `form_field_to_str`. */
  function ToStr(name: string, value: Option<FormValue>, mandatory: bool): (r: Result<Option<string>, HttpError>)
    ensures r.Failure? ==> r.error.statusCode == BadRequest
    ensures value == Some(Upload) ==> r == Failure(ParseError(name, "string"))
    ensures value.None? ==> r == if mandatory then Failure(MandatoryError(name)) else Success(None)
    ensures value.Some? && value.value.TextValue? ==> r == Success(Some(value.value.s))
  {
    match value
    case None => if mandatory then Failure(MandatoryError(name)) else Success(None)
    case Some(Upload) => Failure(ParseError(name, "string"))
    case Some(TextValue(s)) => Success(Some(s))
  }

  lemma {:induction false} AsciiLowerIdempotent(s: string)
    ensures AsciiLower(AsciiLower(s)) == AsciiLower(s)
  {
    var l := AsciiLower(s);
    assert forall i :: 0 <= i < |s| ==> AsciiLowerChar(l[i]) == l[i];
  }

  /** Letter case does not matter to the boolean converter. */
  lemma BooleanIgnoresCase(name: string, s: string, mandatory: bool)
    ensures ToBoolean(name, Some(TextValue(s)), mandatory) == ToBoolean(name, Some(TextValue(AsciiLower(s))), mandatory)
  {
    AsciiLowerIdempotent(s);
  }

  /** `str(b)` in Python: "True" or "False". */
  function PyBoolStr(b: bool): string {
    if b then "True" else "False"
  }

  /** Round trip: the text Python prints for a boolean converts back to it. */
  lemma BooleanRoundTrip(name: string, b: bool, mandatory: bool)
    ensures ToBoolean(name, Some(TextValue(PyBoolStr(b))), mandatory) == Success(Some(b))
  {
    if b {
      assert AsciiLower("True") == "true";
    } else {
      assert AsciiLower("False") == "false";
    }
  }

  /** Text that only looks like a boolean after trimming is refused. */
  lemma BooleanRefusesPadding(name: string, mandatory: bool)
    ensures ToBoolean(name, Some(TextValue(" true")), mandatory) == Failure(BooleanError(name))
    ensures ToBoolean(name, Some(TextValue("1")), mandatory) == Failure(BooleanError(name))
  {
    assert AsciiLower(" true") == " true";
    assert AsciiLower("1") == "1";
  }

  /** The converters agree on what they do without a value, and each
      refuses an uploaded file; the string converter gives back any text. */
  lemma ConvertersAgree(name: string, value: Option<FormValue>, mandatory: bool,
                        parseInt: string -> Option<int>, parseFloat: string -> Option<real>,
                        decode: string -> Option<Json>)
    ensures value.None? ==>
      && ToInt(name, value, mandatory, parseInt).Failure? == mandatory
      && ToFloat(name, value, mandatory, parseFloat).Failure? == mandatory
      && ToBoolean(name, value, mandatory).Failure? == mandatory
      && ToJson(name, value, mandatory, JNull, decode).Failure? == mandatory
      && ToStr(name, value, mandatory).Failure? == mandatory
      && (mandatory ==> ToJson(name, value, mandatory, JNull, decode).error == ToStr(name, value, mandatory).error)
    ensures value == Some(Upload) ==>
      && ToInt(name, value, mandatory, parseInt).Failure?
      && ToFloat(name, value, mandatory, parseFloat).Failure?
      && ToBoolean(name, value, mandatory).Failure?
      && ToJson(name, value, mandatory, JNull, decode).Failure?
      && ToStr(name, value, mandatory).Failure?
    ensures ToStr(name, value, mandatory).Success? ==>
      value.None? || ToStr(name, value, mandatory).value == Some(value.value.s)
  {
  }
}

=== FILE: git_utils.dfy ===
/** `extract_commit_hash`: recovering the commit hash of a cached file from
    its resolved path `.../snapshots/<commit>/...`. Paths are taken as
    already in POSIX form. */
module GitUtils {
  import opened Wrappers

  const SnapshotsMarker := "snapshots/"

  /** The index of the first '/' at or after `k`, or the end of the path. */
  function SegmentEnd(path: string, k: nat): (r: nat)
    requires k <= |path|
    ensures k <= r <= |path|
    ensures forall j :: k <= j < r ==> path[j] != '/'
    ensures r < |path| ==> path[r] == '/'
    decreases |path| - k
  {
    if k == |path| || path[k] == '/' then k else SegmentEnd(path, k + 1)
  }

  /** `snapshots/([^/]+)/` matches at index `i`: the marker, then a
      non-empty run of characters other than '/', then '/'. The greedy run
      stops at the first '/', so this is the only way to match at `i`. */
  predicate MatchesAt(path: string, i: nat) {
    && i + |SnapshotsMarker| <= |path|
    && path[i..i + |SnapshotsMarker|] == SnapshotsMarker
    && var e := SegmentEnd(path, i + |SnapshotsMarker|);
       e > i + |SnapshotsMarker| && e < |path|
  }

  /** The captured group of a match at `i`. */
  function Segment(path: string, i: nat): (r: string)
    requires MatchesAt(path, i)
    ensures |r| > 0 && '/' !in r
  {
    var s := path[i + |SnapshotsMarker|..SegmentEnd(path, i + |SnapshotsMarker|)];
    assert forall j :: 0 <= j < |s| ==> s[j] == path[i + |SnapshotsMarker| + j];
    s
  }

  /** `re.search` from `from` on: the leftmost index where the pattern
      matches, if any. */
  function Search(path: string, from: nat): (r: Option<nat>)
    ensures r.Some? ==> from <= r.value && MatchesAt(path, r.value)
    ensures r.Some? ==> forall j :: from <= j < r.value ==> !MatchesAt(path, j)
    ensures r.None? ==> forall j :: from <= j ==> !MatchesAt(path, j)
    decreases |path| - from
  {
    if from + |SnapshotsMarker| > |path| then None
    else if MatchesAt(path, from) then Some(from)
    else Search(path, from + 1)
  }

  predicate IsLowerHex(c: char) {
    '0' <= c <= '9' || 'a' <= c <= 'f'
  }

  /** Exactly forty lower-case hexadecimal digits. */
  predicate IsCommitHash(s: string) {
    |s| == 40 && forall i :: 0 <= i < |s| ==> IsLowerHex(s[i])
  }

  /** `re.match(r"^[0-9a-f]{40}$", s)`: in Python's regular expressions `$`
      also matches just before a newline that ends the string. */
  predicate RegexAcceptsAsWritten(s: string) {
    IsCommitHash(s) || (|s| == 41 && IsCommitHash(s[..40]) && s[40] == '\n')
  }

  /** The segment a path names, if it names one. */
  function SnapshotSegment(path: string): (r: Option<string>)
    ensures r.Some? ==> |r.value| > 0 && '/' !in r.value
    ensures r.Some? <==> exists i :: MatchesAt(path, i)
  {
    match Search(path, 0)
    case None => None
    case Some(i) => Some(Segment(path, i))
  }

  /** `extract_commit_hash` as written: a given commit hash, or a missing
      path, is returned unchanged; otherwise the snapshot segment when the
      pattern above accepts it. */
  function ExtractCommitHashAsWritten(resolvedFile: Option<string>, commitHash: Option<string>): (r: Option<string>)
    ensures resolvedFile.None? || commitHash.Some? ==> r == commitHash
    ensures resolvedFile.Some? && commitHash.None? ==>
      && (r.Some? <==> SnapshotSegment(resolvedFile.value).Some? && RegexAcceptsAsWritten(SnapshotSegment(resolvedFile.value).value))
      && (r.Some? ==> SnapshotSegment(resolvedFile.value) == r && RegexAcceptsAsWritten(r.value))
  {
    if resolvedFile.None? || commitHash.Some? then commitHash
    else
      match SnapshotSegment(resolvedFile.value)
      case None => None
      case Some(seg) => if RegexAcceptsAsWritten(seg) then Some(seg) else None
  }

  /** `extract_commit_hash` with the hash pattern matched against the whole
      segment: anything it derives from a path is a commit hash. */
  function ExtractCommitHash(resolvedFile: Option<string>, commitHash: Option<string>): (r: Option<string>)
    ensures resolvedFile.None? || commitHash.Some? ==> r == commitHash
    ensures resolvedFile.Some? && commitHash.None? ==>
      && (r.Some? <==> SnapshotSegment(resolvedFile.value).Some? && IsCommitHash(SnapshotSegment(resolvedFile.value).value))
      && (r.Some? ==> r == SnapshotSegment(resolvedFile.value) && IsCommitHash(r.value))
  {
    if resolvedFile.None? || commitHash.Some? then commitHash
    else
      match SnapshotSegment(resolvedFile.value)
      case None => None
      case Some(seg) => if IsCommitHash(seg) then Some(seg) else None
  }

  /** The two agree on every segment except a hash followed by a newline. */
  lemma AsWrittenAgreesOnHashes(resolvedFile: Option<string>, commitHash: Option<string>)
    ensures ExtractCommitHash(resolvedFile, commitHash).Some? ==>
      ExtractCommitHashAsWritten(resolvedFile, commitHash) == ExtractCommitHash(resolvedFile, commitHash)
    ensures ExtractCommitHashAsWritten(resolvedFile, commitHash) != ExtractCommitHash(resolvedFile, commitHash) ==>
      var h := ExtractCommitHashAsWritten(resolvedFile, commitHash);
      h.Some? && |h.value| == 41 && h.value[40] == '\n'
  {
  }

  /** A cached path whose snapshot segment is a commit hash followed by a
      newline: the code as written returns that segment, newline included,
      as the commit hash; the corrected version returns nothing. */
  lemma TrailingNewlineAccepted(hash: string, rest: string)
    requires IsCommitHash(hash)
    ensures var path := SnapshotsMarker + hash + "\n/" + rest;
      && ExtractCommitHashAsWritten(Some(path), None) == Some(hash + "\n")
      && ExtractCommitHash(Some(path), None) == None
  {
    var path := SnapshotsMarker + hash + "\n/" + rest;
    var k := |SnapshotsMarker|;
    assert path[..k] == SnapshotsMarker;
    assert forall j :: k <= j < k + 40 ==> path[j] == hash[j - k];
    assert path[k + 40] == '\n' && path[k + 41] == '/';
    SegmentEndAt(path, k, k + 41);
    assert MatchesAt(path, 0);
    var seg := Segment(path, 0);
    assert seg == hash + "\n";
    assert seg[..40] == hash;
  }

  lemma {:induction false} SegmentEndAt(path: string, k: nat, e: nat)
    requires k <= e < |path|
    requires forall j :: k <= j < e ==> path[j] != '/'
    requires path[e] == '/'
    ensures SegmentEnd(path, k) == e
    decreases e - k
  {
    if k < e {
      SegmentEndAt(path, k + 1, e);
    }
  }

  /** A typical cache path gives back its hash. */
  lemma CachePathGivesHash(prefix: string, hash: string, rest: string)
    requires IsCommitHash(hash)
    requires forall i :: 0 <= i < |prefix| ==> !MatchesAt(prefix + SnapshotsMarker + hash + "/" + rest, i)
    ensures ExtractCommitHash(Some(prefix + SnapshotsMarker + hash + "/" + rest), None) == Some(hash)
  {
    var path := prefix + SnapshotsMarker + hash + "/" + rest;
    var k := |prefix| + |SnapshotsMarker|;
    assert path[|prefix|..k] == SnapshotsMarker;
    assert forall j :: k <= j < k + 40 ==> path[j] == hash[j - k];
    assert path[k + 40] == '/';
    SegmentEndAt(path, k, k + 40);
    assert MatchesAt(path, |prefix|);
    SearchFinds(path, 0, |prefix|);
    assert Segment(path, |prefix|) == hash;
  }

  lemma {:induction false} SearchFinds(path: string, from: nat, i: nat)
    requires from <= i && MatchesAt(path, i)
    requires forall j :: from <= j < i ==> !MatchesAt(path, j)
    ensures Search(path, from) == Some(i)
    decreases i - from
  {
    if from < i {
      SearchFinds(path, from + 1, i);
    }
  }
}

=== FILE: http.dfy ===
/** The data the client exchanges with servers: JSON values, outgoing calls
    and received responses. Nothing here performs I/O; servers are modelled
    as oracles in the modules that use them. */
module Http {
  import opened Wrappers

  /** A parsed JSON value (numbers are the integers the client sends). */
  datatype Json =
    | JNull
    | JBool(b: bool)
    | JInt(i: int)
    | JString(s: string)
    | JArray(items: seq<Json>)
    | JObject(fields: map<string, Json>)

  /** A header mapping as sent: a plain dictionary, keys compared exactly. */
  type Headers = map<string, string>

  /** A received response. Its `headers` are keyed by lower-case name, which
      is how the case-insensitive header mappings of the HTTP libraries look
      a name up. `text` is the decoded body and `content` its bytes. */
  datatype Response = Response(status: int, headers: Headers, text: string, content: seq<bv8>)

  /** The body of an outgoing call. */
  datatype Body = NoBody | Bytes(bytes: seq<bv8>) | TextBody(text: string) | JsonBody(json: Json)

  /** One outgoing HTTP request. */
  datatype HttpCall = HttpCall(verb: string, url: string, headers: Headers, body: Body)

  /** `headers.get(name)` on a response; `name` must be lower-case. */
  function HeaderGet(h: Headers, name: string): Option<string> {
    if name in h then Some(h[name]) else None
  }

  /** Python's truthiness of an optional string: `None` and `""` are false. */
  predicate Truthy(s: Option<string>) {
    s.Some? && s.value != ""
  }

  /** `str(x)` for an optional string: `None` prints as "None". */
  function PyStr(s: Option<string>): string {
    match s
    case Some(v) => v
    case None => "None"
  }
}

=== FILE: lfs_client.dfy ===
/** The Git LFS client: the batch request, object attributes computed from
    a file, and upload/download through the transfer adapter the server
    picks. `sha256` stands for the hex digest of a byte string; the batch
    server answers a batch request. */
module LfsClient {
  import opened Wrappers
  import opened Text
  import opened Http
  import opened LfsTypes
  import opened LfsTransfer

  const LfsMimeType := "application/vnd.git-lfs+json"
  const TransferAdapterPriority: seq<string> := ["multipart-basic", "basic"]
  /** The read size used while hashing a file (4 * 1024 * 1000 bytes). */
  const FileReadBufferSize: nat := 4 * 1024 * 1000

  /** The transfer adapters the client implements. */
  datatype Adapter = Basic | MultipartBasic

  /** The `TRANSFER_ADAPTERS` table. */
  function AdapterFor(name: string): (r: Option<Adapter>)
    ensures r.Some? <==> name in {"basic", "multipart-basic"}
    ensures r == Some(Basic) <==> name == "basic"
  {
    if name == "basic" then Some(Basic)
    else if name == "multipart-basic" then Some(MultipartBasic)
    else None
  }

  /** Every adapter named in the default priority list is implemented. */
  lemma PriorityAdaptersImplemented()
    ensures forall i :: 0 <= i < |TransferAdapterPriority| ==> AdapterFor(TransferAdapterPriority[i]).Some?
    ensures TransferAdapterPriority[0] == "multipart-basic"
  {
  }

  datatype Client = Client(url: string, authToken: Option<string>, transferAdapters: seq<string>)

  /** `LfsClient.__init__`: the server URL loses its trailing slashes; the
      adapters default to the priority list. */
  function NewClient(serverUrl: string, authToken: Option<string>, transferAdapters: Option<seq<string>>): (c: Client)
    ensures c.url <= serverUrl
    ensures forall i :: |c.url| <= i < |serverUrl| ==> serverUrl[i] == '/'
    ensures c.url == [] || c.url[|c.url| - 1] != '/'
    ensures c.authToken == authToken
    ensures c.transferAdapters == (if transferAdapters.Some? then transferAdapters.value else TransferAdapterPriority)
  {
    Client(RStripChar(serverUrl, '/'), authToken, transferAdapters.GetOr(TransferAdapterPriority))
  }

  /** One more trailing slash on the server URL builds the same client, and
      building from a client's own URL keeps it. */
  lemma {:induction false} TrailingSlashIgnored(serverUrl: string, authToken: Option<string>,
                                                transferAdapters: Option<seq<string>>)
    ensures NewClient(serverUrl + "/", authToken, transferAdapters) == NewClient(serverUrl, authToken, transferAdapters)
    ensures var c := NewClient(serverUrl, authToken, transferAdapters);
      NewClient(c.url, authToken, transferAdapters) == c
  {
    assert (serverUrl + "/")[..|serverUrl|] == serverUrl;
  }

  /** `_url_for` without query parameters: the segments joined by "/" under
      the server URL. */
  function UrlFor(c: Client, segments: seq<string>): string {
    c.url + "/" + Join(segments, "/")
  }

  /** The batch endpoint of a repository. */
  lemma BatchUrl(c: Client, prefix: string)
    ensures UrlFor(c, [prefix, "objects", "batch"]) == c.url + "/" + prefix + "/objects/batch"
  {
    JoinThree(prefix, "objects", "batch", "/");
  }

  /** An object's attributes as sent in a batch request. */
  type Attributes = map<string, Json>

  function ObjectAttrs(oid: string, size: int): Attributes {
    map["oid" := JString(oid), "size" := JInt(size)]
  }

  function StringsJson(ss: seq<string>): (r: seq<Json>)
    ensures |r| == |ss| && forall i :: 0 <= i < |ss| ==> r[i] == JString(ss[i])
  {
    if ss == [] then [] else [JString(ss[0])] + StringsJson(ss[1..])
  }

  function ObjectsJson(objects: seq<Attributes>): (r: seq<Json>)
    ensures |r| == |objects| && forall i :: 0 <= i < |objects| ==> r[i] == JObject(objects[i])
  {
    if objects == [] then [] else [JObject(objects[0])] + ObjectsJson(objects[1..])
  }

  /** The batch request: a POST of `{transfers, operation, objects[, ref]}`
      to the batch endpoint, with the LFS media type as content type and
      accepted type and a bearer token when one is set. */
  function BatchCall(c: Client, prefix: string, operation: string, objects: seq<Attributes>,
                     ref: Option<string>, transfers: Option<seq<string>>): (r: HttpCall)
    ensures r.verb == "POST" && r.url == c.url + "/" + prefix + "/objects/batch"
    ensures r.headers.Keys == {"Content-type", "Accept"} + (if Truthy(c.authToken) then {"Authorization"} else {})
    ensures r.headers["Content-type"] == LfsMimeType && r.headers["Accept"] == LfsMimeType
    ensures Truthy(c.authToken) ==> r.headers["Authorization"] == "Bearer " + c.authToken.value
    ensures r.body.JsonBody? && r.body.json.JObject?
    ensures var fields := r.body.json.fields;
      && fields.Keys == {"transfers", "operation", "objects"} + (if Truthy(ref) then {"ref"} else {})
      && fields["transfers"] == JArray(StringsJson(transfers.GetOr(c.transferAdapters)))
      && fields["operation"] == JString(operation)
      && fields["objects"] == JArray(ObjectsJson(objects))
      && (Truthy(ref) ==> fields["ref"] == JString(ref.value))
  {
    BatchUrl(c, prefix);
    var payload := map[
      "transfers" := JArray(StringsJson(transfers.GetOr(c.transferAdapters))),
      "operation" := JString(operation),
      "objects" := JArray(ObjectsJson(objects))];
    var payload := if Truthy(ref) then payload["ref" := JString(ref.value)] else payload;
    var headers := map["Content-type" := LfsMimeType, "Accept" := LfsMimeType];
    var headers := if Truthy(c.authToken) then headers["Authorization" := "Bearer " + c.authToken.value] else headers;
    HttpCall("POST", UrlFor(c, [prefix, "objects", "batch"]), headers, JsonBody(JObject(payload)))
  }

  /** Upload and download batch requests for the same objects differ only
      in the "operation" field. */
  lemma BatchOperationOnly(c: Client, prefix: string, objects: seq<Attributes>,
                           ref: Option<string>, transfers: Option<seq<string>>)
    ensures var up := BatchCall(c, prefix, "upload", objects, ref, transfers);
      var down := BatchCall(c, prefix, "download", objects, ref, transfers);
      && up.verb == down.verb && up.url == down.url && up.headers == down.headers
      && up.body.json.fields - {"operation"} == down.body.json.fields - {"operation"}
      && up.body.json.fields["operation"] == JString("upload")
      && down.body.json.fields["operation"] == JString("download")
  {
  }

  /** `LfsClient.batch`: any status other than 200 is an `LfsError`
      carrying it; otherwise the decoded reply. */
  function Batch(c: Client, prefix: string, operation: string, objects: seq<Attributes>,
                 ref: Option<string>, transfers: Option<seq<string>>, batchServer: HttpCall -> BatchReply)
    : (r: Result<BatchResponse, LfsFailure>)
    ensures var reply := batchServer(BatchCall(c, prefix, operation, objects, ref, transfers));
      && (reply.status != 200 ==> r == Failure(LfsError(reply.status)))
      && (reply.status == 200 && reply.body.None? ==> r == Failure(UndecodableReply))
      && (r.Success? <==> reply.status == 200 && reply.body.Some?)
      && (r.Success? ==> r.value == reply.body.value)
  {
    var reply := batchServer(BatchCall(c, prefix, operation, objects, ref, transfers));
    if reply.status != 200 then Failure(LfsError(reply.status))
    else if reply.body.None? then Failure(UndecodableReply)
    else Success(reply.body.value)
  }

  /** The attribute key an extra keyword is sent under. */
  function ExtraKey(k: string): string {
    "x-" + k
  }

  lemma ExtraKeyInjective(a: string, b: string)
    ensures ExtraKey(a) == ExtraKey(b) ==> a == b
  {
    if ExtraKey(a) == ExtraKey(b) {
      assert a == ExtraKey(a)[2..];
    }
  }

  /** `_add_extra_object_attributes`: every extra `k: v` is added as
      `x-k: v`; attributes whose key does not start with "x-" (such as
      `oid` and `size`) are kept. */
  function AddExtraAttributes(attrs: Attributes, extras: map<string, string>): (r: Attributes)
    ensures forall k :: k in extras ==> ExtraKey(k) in r && r[ExtraKey(k)] == JString(extras[k])
    ensures forall key :: key in attrs && !(ExtraKey([]) <= key) ==> key in r && r[key] == attrs[key]
    ensures forall key :: key in r ==> key in attrs || (ExtraKey([]) <= key && key[2..] in extras)
  {
    var added := map key | key in (set k | k in extras :: ExtraKey(k)) :: JString(extras[key[2..]]);
    forall k | k in extras
      ensures ExtraKey(k) in added && added[ExtraKey(k)] == JString(extras[k])
    {
      assert ExtraKey(k)[2..] == k;
    }
    attrs + added
  }

  /** What `read(n)` returns at position `pos`. */
  function ReadAt(content: seq<bv8>, pos: nat, n: nat): (r: seq<bv8>)
    ensures pos >= |content| ==> r == []
    ensures pos < |content| ==> r == content[pos..if pos + n <= |content| then pos + n else |content|]
  {
    if pos >= |content| then [] else if pos + n <= |content| then content[pos..pos + n] else content[pos..]
  }

  /** The end of a read of `n` bytes at `pos`. */
  function ReadEnd(size: nat, pos: nat, n: nat): (r: nat)
    requires pos <= size
    ensures pos <= r <= size
  {
    if pos + n <= size then pos + n else size
  }

  /** One read of `n` bytes takes the first chunk off what is left. */
  lemma ReadStep(content: seq<bv8>, pos: nat, n: nat)
    requires pos < |content| && n > 0
    ensures var m := ReadEnd(|content|, pos, n);
      && pos < m
      && Chunks(content[pos..], n) == [content[pos..m]] + Chunks(content[m..], n)
  {
    var m := ReadEnd(|content|, pos, n);
    var tail := content[pos..];
    if |tail| <= n {
      assert content[pos..m] == tail;
      assert content[m..] == [];
    } else {
      assert content[pos..m] == tail[..n];
      assert tail[n..] == content[m..];
    }
  }

  lemma FlattenAppend(done: seq<seq<bv8>>, c: seq<bv8>)
    ensures Flatten(done + [c]) == Flatten(done) + c
  {
    if done == [] {
      assert [c][1..] == [];
    } else {
      assert (done + [c])[1..] == done[1..] + [c];
    }
  }

  /** One more read keeps the reads done so far a prefix of all the reads,
      and adds its bytes to what was hashed. */
  lemma ReadAllStep(content: seq<bv8>, start: nat, pos: nat, n: nat, done: seq<seq<bv8>>)
    requires n > 0 && start <= pos < |content|
    requires Chunks(content[start..], n) == done + Chunks(content[pos..], n)
    ensures var next := ReadEnd(|content|, pos, n);
      && pos < next
      && |done| < |Chunks(content[start..], n)|
      && Chunks(content[start..], n) == (done + [content[pos..next]]) + Chunks(content[next..], n)
      && Flatten(done + [content[pos..next]]) == Flatten(done) + content[pos..next]
  {
    var next := ReadEnd(|content|, pos, n);
    ReadStep(content, pos, n);
    assert Chunks(content[start..], n) == (done + [content[pos..next]]) + Chunks(content[next..], n);
    FlattenAppend(done, content[pos..next]);
  }

  /** The reading loop of `_get_object_attrs`: reads of `n` bytes from `start` until the end of file, each one hashed in turn.
      `failingRead` names the read (counting from 0) that raises an I/O
      error, if any. */
  method ReadAll(content: seq<bv8>, start: nat, n: nat, failingRead: Option<nat>)
    returns (hashed: seq<bv8>, pos: nat, readCount: nat, failed: bool)
    requires n > 0
    ensures failed <==> failingRead.Some? && failingRead.value < |Chunks(ReadAt(content, start, |content|), n)|
    ensures !failed ==>
      && hashed == ReadAt(content, start, |content|)
      && pos == (if start <= |content| then |content| else start)
      && readCount == |Chunks(ReadAt(content, start, |content|), n)|
      && (failingRead.None? || failingRead.value >= readCount)
  {
    if start >= |content| {
      return [], start, 0, false;
    }
    assert ReadAt(content, start, |content|) == content[start..];
    pos, hashed, readCount := start, [], 0;
    ghost var done: seq<seq<bv8>> := [];
    while pos < |content|
      invariant start <= pos <= |content|
      invariant Chunks(content[start..], n) == done + Chunks(content[pos..], n)
      invariant hashed == Flatten(done) && readCount == |done|
      invariant failingRead.None? || failingRead.value >= readCount
      decreases |content| - pos
    {
      ReadAllStep(content, start, pos, n, done);
      if failingRead == Some(readCount) {
        return hashed, pos, readCount, true;
      }
      var next := ReadEnd(|content|, pos, n);
      var data := content[pos..next];
      done := done + [data];
      hashed := hashed + data;
      readCount := readCount + 1;
      pos := next;
    }
    assert content[pos..] == [];
    assert done == Chunks(content[start..], n);
    FlattenChunks(content[start..], n);
    failed := false;
  }

  /** `_get_object_attrs`: the file is read in `FileReadBufferSize` chunks
      until a read comes back empty, hashing what was read; `size` is the
      position reached. Whatever happens the file is left at position 0.
      `failingRead` names the read (counting from 0) that raises an I/O
      error, if any. */
  method GetObjectAttrs(file: File, sha256: seq<bv8> -> string, failingRead: Option<nat>)
    returns (attrs: Result<Attributes, LfsFailure>, after: File)
    ensures after == File(file.content, 0)
    ensures attrs.Failure? <==> failingRead.Some? && failingRead.value <= |Chunks(Remainder(file), FileReadBufferSize)|
    ensures attrs.Failure? ==> attrs.error == ReadFailed
    ensures attrs.Success? ==>
      attrs.value == ObjectAttrs(sha256(Remainder(file)), if file.pos <= |file.content| then |file.content| else file.pos)
  {
    assert ReadAt(file.content, file.pos, |file.content|) == Remainder(file);
    var hashed, pos, readCount, failed := ReadAll(file.content, file.pos, FileReadBufferSize, failingRead);
    after := File(file.content, 0);
    if failed || failingRead == Some(readCount) {
      // the read that raised, or the final (empty) read
      attrs := Failure(ReadFailed);
    } else {
      attrs := Success(ObjectAttrs(sha256(hashed), pos));
    }
  }

  /** The adapter the batch reply names: a missing `transfer` key is a
      `KeyError`, a name outside the table a `ValueError`. */
  function SelectAdapter(reply: BatchResponse): (r: Result<Adapter, LfsFailure>)
    ensures reply.transfer.None? <==> r == Failure(MissingKey("transfer"))
    ensures reply.transfer.Some? ==>
      (r.Success? <==> AdapterFor(reply.transfer.value).Some?)
      && (r.Failure? ==> r.error == UnsupportedAdapter(reply.transfer.value))
      && (r.Success? ==> r.value == AdapterFor(reply.transfer.value).value)
  {
    match reply.transfer
    case None => Failure(MissingKey("transfer"))
    case Some(name) =>
      match AdapterFor(name)
      case None => Failure(UnsupportedAdapter(name))
      case Some(a) => Success(a)
  }

  /** The first object of the batch reply. */
  function FirstObject(reply: BatchResponse): (r: Result<ObjectSpec, LfsFailure>)
    ensures reply.objects.None? ==> r == Failure(MissingKey("objects"))
    ensures reply.objects.Some? ==>
      (reply.objects.value == [] <==> r == Failure(MissingObject))
      && (reply.objects.value != [] ==> r == Success(reply.objects.value[0]))
  {
    match reply.objects
    case None => Failure(MissingKey("objects"))
    case Some(objs) => if objs == [] then Failure(MissingObject) else Success(objs[0])
  }

  /** The batch prefix of a repository. */
  function RepoPrefix(organization: string, repoType: string, repo: string): string {
    organization + "/" + repoType + "/" + repo
  }

  /** What an upload did. */
  datatype UploadReport = UploadReport(
    batch: Option<HttpCall>,
    calls: seq<HttpCall>,
    progress: seq<int>,
    result: Result<Attributes, LfsFailure>)

  /** `LfsClient.upload`: hash the file (which leaves it at position 0),
      add the extras, ask the batch endpoint for an "upload" of that one
      object, pick the named adapter and let it upload the whole file. On
      success the object's attributes are returned. */
  method Upload(c: Client, file: File, organization: string, repoType: string, repo: string,
                extras: map<string, string>, onProgress: bool, sha256: seq<bv8> -> string,
                md5b64: seq<bv8> -> string, failingRead: Option<nat>,
                batchServer: HttpCall -> BatchReply, server: Server)
    returns (report: UploadReport)
    ensures failingRead.None? ==> report.batch.Some?
    ensures report.batch.None? ==> report.calls == [] && report.result == Failure(ReadFailed)
    ensures report.batch.Some? ==>
      var attrs := AddExtraAttributes(ObjectAttrs(sha256(Remainder(file)),
                                                  if file.pos <= |file.content| then |file.content| else file.pos), extras);
      && report.batch.value == BatchCall(c, RepoPrefix(organization, repoType, repo), "upload", [attrs], None, None)
      && (report.result.Success? ==> report.result.value == attrs)
    ensures report.batch.Some? ==>
      var attrs := report.batch.value.body.json.fields["objects"].items[0].fields;
      var reply := Batch(c, RepoPrefix(organization, repoType, repo), "upload", [attrs], None, None, batchServer);
      && (reply.Failure? ==> report.result == Failure(reply.error) && report.calls == [])
      && (reply.Success? && SelectAdapter(reply.value).Failure? ==>
            report.result == Failure(SelectAdapter(reply.value).error) && report.calls == [])
      && (reply.Success? && SelectAdapter(reply.value).Success? && FirstObject(reply.value).Failure? ==>
            report.result == Failure(FirstObject(reply.value).error) && report.calls == [])
      && (reply.Success? && SelectAdapter(reply.value) == Success(Basic) && FirstObject(reply.value).Success? ==>
            var run := BasicUpload(File(file.content, 0), FirstObject(reply.value).value, server);
            && report.calls == run.calls && report.progress == run.progress
            && (report.result.Success? <==> run.outcome.Pass?)
            && (run.outcome.Fail? ==> report.result == Failure(run.outcome.error)))
      && (reply.Success? && SelectAdapter(reply.value) == Success(MultipartBasic) && FirstObject(reply.value).Success? ==>
            var run := MultipartRun(File(file.content, 0), FirstObject(reply.value).value, onProgress, server, md5b64);
            && report.calls == run.calls && report.progress == run.progress
            && (report.result.Success? <==> run.outcome.Pass?)
            && (run.outcome.Fail? ==> report.result == Failure(run.outcome.error)))
    ensures report.result.Success? ==> report.batch.Some?
  {
    var hashedAttrs, rewound := GetObjectAttrs(file, sha256, failingRead);
    if hashedAttrs.Failure? {
      return UploadReport(None, [], [], Failure(hashedAttrs.error));
    }
    var attrs := AddExtraAttributes(hashedAttrs.value, extras);
    var prefix := RepoPrefix(organization, repoType, repo);
    var call := BatchCall(c, prefix, "upload", [attrs], None, None);
    assert call.body.json.fields["objects"].items[0].fields == attrs;
    var reply := Batch(c, prefix, "upload", [attrs], None, None, batchServer);
    if reply.Failure? {
      return UploadReport(Some(call), [], [], Failure(reply.error));
    }
    var adapter := SelectAdapter(reply.value);
    if adapter.Failure? {
      return UploadReport(Some(call), [], [], Failure(adapter.error));
    }
    var obj := FirstObject(reply.value);
    if obj.Failure? {
      return UploadReport(Some(call), [], [], Failure(obj.error));
    }
    match adapter.value {
      case Basic =>
        var run := BasicUpload(rewound, obj.value, server);
        report := UploadReport(Some(call), run.calls, run.progress,
                               if run.outcome.Pass? then Success(attrs) else Failure(run.outcome.error));
      case MultipartBasic =>
        var calls, progress, _, outcome := MultipartUpload(rewound, obj.value, onProgress, server, md5b64);
        report := UploadReport(Some(call), calls, progress,
                               if outcome.Pass? then Success(attrs) else Failure(outcome.error));
    }
  }

  /** What a download did. */
  datatype DownloadReport = DownloadReport(batch: HttpCall, run: DownloadRun)

  /** `LfsClient.download`: ask the batch endpoint for a "download" of the
      object with the given oid and size (plus extras), pick the named
      adapter (both download the same way) and write the object's bytes to
      the sink. */
  function Download(c: Client, sink: seq<bv8>, oid: string, size: int, organization: string, repoType: string,
                    repo: string, extras: map<string, string>, batchServer: HttpCall -> BatchReply, server: Server)
    : (r: DownloadReport)
    ensures r.batch == BatchCall(c, RepoPrefix(organization, repoType, repo), "download",
                                 [AddExtraAttributes(ObjectAttrs(oid, size), extras)], None, None)
    ensures var reply := batchServer(r.batch);
      && (reply.status != 200 ==> r.run == DownloadRun([], sink, Fail(LfsError(reply.status))))
      && (r.run.outcome.Pass? <==>
            && reply.status == 200 && reply.body.Some?
            && SelectAdapter(reply.body.value).Success?
            && FirstObject(reply.body.value).Success?
            && BasicDownload(sink, FirstObject(reply.body.value).value, server).outcome.Pass?)
      && (r.run.outcome.Pass? ==> r.run == BasicDownload(sink, FirstObject(reply.body.value).value, server))
      && (r.run.outcome.Fail? ==> r.run.calls == [] && r.run.sink == sink)
  {
    var attrs := AddExtraAttributes(ObjectAttrs(oid, size), extras);
    var prefix := RepoPrefix(organization, repoType, repo);
    DownloadReport(BatchCall(c, prefix, "download", [attrs], None, None),
                   DownloadAfterBatch(Batch(c, prefix, "download", [attrs], None, None, batchServer), sink, server))
  }

  /** What a caller of `download` sees when the batch server answers 200
      with a supported adapter and a first object that has a download action:
      exactly one transfer request, a GET of that action, and the sink gains
      exactly the body of its reply. */
  lemma DownloadWritesBody(c: Client, sink: seq<bv8>, oid: string, size: int, organization: string,
                           repoType: string, repo: string, extras: map<string, string>,
                           transfer: string, obj: ObjectSpec, others: seq<ObjectSpec>, server: Server)
    requires transfer == "basic" || transfer == "multipart-basic"
    requires obj.actions.Some? && obj.actions.value.download.Some?
    ensures var batchServer := (call: HttpCall) => BatchReply(200, Some(BatchResponse(Some(transfer), Some([obj] + others))));
      var dl := obj.actions.value.download.value;
      var get := HttpCall("GET", dl.href, dl.header, NoBody);
      var r := Download(c, sink, oid, size, organization, repoType, repo, extras, batchServer, server);
      && r.run.calls == [get]
      && r.run.sink == sink + server([get]).content
      && r.run.outcome.Pass?
  {
    var reply := BatchResponse(Some(transfer), Some([obj] + others));
    assert FirstObject(reply) == Success(obj);
  }

  /** What the download does with the batch outcome: stop at a failed batch
      call, an unknown adapter or a missing object; otherwise the basic
      download of the first object. */
  function DownloadAfterBatch(reply: Result<BatchResponse, LfsFailure>, sink: seq<bv8>, server: Server): (run: DownloadRun)
    ensures reply.Failure? ==> run == DownloadRun([], sink, Fail(reply.error))
    ensures run.outcome.Pass? <==>
      && reply.Success?
      && SelectAdapter(reply.value).Success?
      && FirstObject(reply.value).Success?
      && BasicDownload(sink, FirstObject(reply.value).value, server).outcome.Pass?
    ensures run.outcome.Pass? ==> run == BasicDownload(sink, FirstObject(reply.value).value, server)
    ensures run.outcome.Fail? ==> run.calls == [] && run.sink == sink
  {
    if reply.Failure? then DownloadRun([], sink, Fail(reply.error))
    else
      match SelectAdapter(reply.value)
      case Failure(e) => DownloadRun([], sink, Fail(e))
      case Success(_) =>
        match FirstObject(reply.value)
        case Failure(e) => DownloadRun([], sink, Fail(e))
        case Success(obj) => BasicDownload(sink, obj, server)
  }
}

=== FILE: lfs_transfer.dfy ===
/** The LFS transfer adapters: `basic` (one PUT, optional verify; one
    streamed GET for downloads) and `multipart-basic` (init, the parts in
    list order, commit, verify). Every adapter starts a fresh request
    history; `server` answers each request. `md5b64` stands for
    `base64(md5(data))`. */
module LfsTransfer {
  import opened Wrappers
  import opened Http
  import opened LfsTypes

  const DownloadChunkSize: nat := 16 * 1024

  /** `status // 100 == 2`. */
  predicate Is2xx(status: int) {
    status / 100 == 2
  }

  /** Floor division by 100 is 2 exactly on 200..299. */
  lemma Is2xxRange(status: int)
    ensures Is2xx(status) <==> 200 <= status < 300
  {
  }

  /** The requests an adapter sent and how it ended. */
  datatype Sent = Sent(calls: seq<HttpCall>, outcome: Outcome<LfsFailure>)

  /** Sends `call` after `history`, returning the new history and the reply. */
  function Send(history: seq<HttpCall>, call: HttpCall, server: Server): (r: (seq<HttpCall>, Response))
    ensures r.0 == history + [call] && r.1 == server(history + [call])
  {
    var h := history + [call];
    (h, server(h))
  }

  /** The JSON body of a verify request. */
  function VerifyBody(oid: string, size: int): Json {
    JObject(map["oid" := JString(oid), "size" := JInt(size)])
  }

  /** The verify request: a POST of `{oid, size}` to the verify action. */
  function VerifyCall(action: Action, oid: string, size: int): HttpCall {
    HttpCall("POST", action.href, action.header, JsonBody(VerifyBody(oid, size)))
  }

  /** `_verify_object`: the object's `oid` and `size` are looked up first
      (a missing one is a `KeyError` and nothing is sent), then `{oid, size}`
      is POSTed to the verify action, and a non-2xx reply is fatal. */
  function VerifyObject(action: Action, oid: Option<string>, size: Option<int>,
                        history: seq<HttpCall>, server: Server): (r: Sent)
    ensures oid.None? ==> r == Sent(history, Fail(MissingKey("oid")))
    ensures oid.Some? && size.None? ==> r == Sent(history, Fail(MissingKey("size")))
    ensures oid.Some? && size.Some? ==>
      var call := VerifyCall(action, oid.value, size.value);
      && r.calls == history + [call]
      && (r.outcome.Pass? <==> 200 <= server(r.calls).status < 300)
      && (r.outcome.Fail? ==> r.outcome.error == UnexpectedStatus(VerifyStep, server(r.calls).status, server(r.calls).text))
  {
    if oid.None? then Sent(history, Fail(MissingKey("oid")))
    else if size.None? then Sent(history, Fail(MissingKey("size")))
    else
      var call := VerifyCall(action, oid.value, size.value);
      var (h, reply) := Send(history, call, server);
      Is2xxRange(reply.status);
      if Is2xx(reply.status) then Sent(h, Pass)
      else Sent(h, Fail(UnexpectedStatus(VerifyStep, reply.status, reply.text)))
  }

  /** The verify step passes exactly when oid and size are both present and
      the reply to the verify request satisfies `status // 100 == 2`. */
  lemma VerifyPassesIff(action: Action, oid: Option<string>, size: Option<int>,
                        history: seq<HttpCall>, server: Server)
    ensures VerifyObject(action, oid, size, history, server).outcome.Pass? <==>
      && oid.Some? && size.Some?
      && Is2xx(server(history + [VerifyCall(action, oid.value, size.value)]).status)
  {
    if oid.Some? && size.Some? {
      Is2xxRange(server(history + [VerifyCall(action, oid.value, size.value)]).status);
    }
  }

  /** What an upload adapter did: requests sent, progress reports made,
      and how it ended. */
  datatype UploadRun = UploadRun(calls: seq<HttpCall>, progress: seq<int>, outcome: Outcome<LfsFailure>)

  /** The upload action of an object, when its `actions` has one. */
  function UploadAction(spec: ObjectSpec): Option<Action> {
    if spec.actions.Some? then spec.actions.value.upload else None
  }

  /** `BasicTransferAdapter.upload`: nothing to do when the object has no
      upload action (it is already stored); otherwise PUT the file from its
      current position, require a 2xx reply, then verify when asked to.
      Progress is never reported. */
  function BasicUpload(file: File, spec: ObjectSpec, server: Server): (r: UploadRun)
    ensures r.progress == []
    ensures UploadAction(spec).None? ==> r == UploadRun([], [], Pass)
    ensures UploadAction(spec).Some? ==>
      var ul := UploadAction(spec).value;
      var put := HttpCall("PUT", ul.href, ul.header, Bytes(Remainder(file)));
      && |r.calls| >= 1 && r.calls[0] == put
      && (200 <= server([put]).status < 300 <==> !(r.outcome.Fail? && r.outcome.error.UnexpectedStatus? && r.outcome.error.step == UploadStep))
      && (!(200 <= server([put]).status < 300) ==> r.calls == [put])
      && (spec.actions.value.verify.None? && r.outcome.Pass? ==> r.calls == [put])
      && (r.outcome.Pass? ==> 200 <= server([put]).status < 300)
      && (r.outcome.Pass? && spec.actions.value.verify.Some? ==>
            |r.calls| == 2 && r.calls[1].url == spec.actions.value.verify.value.href && 200 <= server(r.calls).status < 300)
      && (!(200 <= server([put]).status < 300) ==>
            r.outcome == Fail(UnexpectedStatus(UploadStep, server([put]).status, server([put]).text)))
      && (200 <= server([put]).status < 300 && spec.actions.value.verify.None? ==> r == UploadRun([put], [], Pass))
      && (200 <= server([put]).status < 300 && spec.actions.value.verify.Some? ==>
            var v := VerifyObject(spec.actions.value.verify.value, spec.oid, spec.size, [put], server);
            r.calls == v.calls && r.outcome == v.outcome)
  {
    match UploadAction(spec)
    case None => UploadRun([], [], Pass)
    case Some(ul) =>
      var put := HttpCall("PUT", ul.href, ul.header, Bytes(Remainder(file)));
      var (h, reply) := Send([], put, server);
      assert h == [put];
      Is2xxRange(reply.status);
      if !Is2xx(reply.status) then
        UploadRun(h, [], Fail(UnexpectedStatus(UploadStep, reply.status, reply.text)))
      else
        match spec.actions.value.verify
        case None => UploadRun(h, [], Pass)
        case Some(v) =>
          var s := VerifyObject(v, spec.oid, spec.size, h, server);
          UploadRun(s.calls, [], s.outcome)
  }

  /** Over every server, the basic upload passes exactly when there is
      nothing to upload, or the PUT gets a 2xx reply and, when a verify
      action is given, the verify step passes after it. */
  lemma BasicUploadPassesIff(file: File, spec: ObjectSpec, server: Server)
    ensures BasicUpload(file, spec, server).outcome.Pass? <==>
      || UploadAction(spec).None?
      || (var ul := UploadAction(spec).value;
          var put := HttpCall("PUT", ul.href, ul.header, Bytes(Remainder(file)));
          && Is2xx(server([put]).status)
          && (spec.actions.value.verify.Some? ==>
                && spec.oid.Some? && spec.size.Some?
                && Is2xx(server([put, VerifyCall(spec.actions.value.verify.value, spec.oid.value, spec.size.value)]).status)))
  {
    if UploadAction(spec).Some? {
      var ul := UploadAction(spec).value;
      var put := HttpCall("PUT", ul.href, ul.header, Bytes(Remainder(file)));
      Is2xxRange(server([put]).status);
      var v := spec.actions.value.verify;
      if v.Some? {
        VerifyPassesIff(v.value, spec.oid, spec.size, [put], server);
        if spec.oid.Some? && spec.size.Some? {
          assert [put] + [VerifyCall(v.value, spec.oid.value, spec.size.value)]
              == [put, VerifyCall(v.value, spec.oid.value, spec.size.value)];
        }
      }
    }
  }

  /** Splits `data` into consecutive chunks of at most `n` bytes, the way a
      streamed body is delivered. */
  function Chunks(data: seq<bv8>, n: nat): seq<seq<bv8>>
    requires n > 0
    decreases |data|
  {
    if data == [] then []
    else if |data| <= n then [data]
    else [data[..n]] + Chunks(data[n..], n)
  }

  function Flatten(chunks: seq<seq<bv8>>): seq<bv8> {
    if chunks == [] then [] else chunks[0] + Flatten(chunks[1..])
  }

  /** Writing the chunks one after another writes exactly the body. */
  lemma {:induction false} FlattenChunks(data: seq<bv8>, n: nat)
    requires n > 0
    ensures Flatten(Chunks(data, n)) == data
    decreases |data|
  {
    if data == [] {
    } else if |data| <= n {
      assert Flatten([data]) == data + Flatten([]);
    } else {
      FlattenChunks(data[n..], n);
      var cs := [data[..n]] + Chunks(data[n..], n);
      assert cs[1..] == Chunks(data[n..], n);
      assert data == data[..n] + data[n..];
    }
  }

  /** What a download did: requests sent, the sink's bytes afterwards, and
      how it ended. */
  datatype DownloadRun = DownloadRun(calls: seq<HttpCall>, sink: seq<bv8>, outcome: Outcome<LfsFailure>)

  /** `BasicTransferAdapter.download`: a missing download action is a
      `KeyError`; otherwise the body of the GET reply is appended to the sink
      in the order received, whatever the status. */
  function BasicDownload(sink: seq<bv8>, spec: ObjectSpec, server: Server): (r: DownloadRun)
    ensures spec.actions.None? ==> r == DownloadRun([], sink, Fail(MissingKey("actions")))
    ensures spec.actions.Some? && spec.actions.value.download.None? ==>
      r == DownloadRun([], sink, Fail(MissingKey("download")))
    ensures spec.actions.Some? && spec.actions.value.download.Some? ==>
      var dl := spec.actions.value.download.value;
      var get := HttpCall("GET", dl.href, dl.header, NoBody);
      r == DownloadRun([get], sink + server([get]).content, Pass)
  {
    if spec.actions.None? then DownloadRun([], sink, Fail(MissingKey("actions")))
    else if spec.actions.value.download.None? then DownloadRun([], sink, Fail(MissingKey("download")))
    else
      var dl := spec.actions.value.download.value;
      var get := HttpCall("GET", dl.href, dl.header, NoBody);
      var (h, reply) := Send([], get, server);
      assert h == [get];
      var written := Flatten(Chunks(reply.content, DownloadChunkSize));
      FlattenChunks(reply.content, DownloadChunkSize);
      DownloadRun(h, sink + written, Pass)
  }

  /** `calculate_digest_header`: only "contentMD5" is understood, and it adds
      exactly one header, `Content-MD5`. */
  function DigestHeader(data: seq<bv8>, wantDigest: string, md5b64: seq<bv8> -> string): (r: Result<Headers, LfsFailure>)
    ensures r.Success? <==> wantDigest == "contentMD5"
    ensures r.Success? ==> r.value.Keys == {"Content-MD5"} && r.value["Content-MD5"] == md5b64(data)
    ensures r.Failure? ==> r.error == UnsupportedDigest(wantDigest)
  {
    if wantDigest == "contentMD5" then Success(map["Content-MD5" := md5b64(data)])
    else Failure(UnsupportedDigest(wantDigest))
  }

  /** The bytes of a part: `size` bytes from `pos` when `size` is truthy
      (a negative size reads to the end, as `read` does), else everything
      from `pos` to the end of file. */
  function PartBody(content: seq<bv8>, pos: nat, size: Option<int>): (r: seq<bv8>)
    ensures pos >= |content| ==> r == []
    ensures pos < |content| && size.Some? && size.value > 0 && pos + size.value <= |content| ==>
      r == content[pos..pos + size.value]
    ensures pos < |content| && (size.None? || size.value <= 0 || pos + size.value > |content|) ==>
      r == content[pos..]
  {
    if pos >= |content| then []
    else if size.Some? && size.value > 0 then
      if pos + size.value <= |content| then content[pos..pos + size.value] else content[pos..]
    else content[pos..]
  }

  /** The request for one part, or the error raised before it is sent:
      a negative position fails the seek, and a truthy `want_digest` other
      than "contentMD5" is refused. */
  function PartRequest(file: File, part: Part, md5b64: seq<bv8> -> string): (r: Result<HttpCall, LfsFailure>)
    ensures part.pos.Some? && part.pos.value < 0 ==> r == Failure(NegativeSeek(part.pos.value))
    ensures r.Success? ==>
      && r.value.url == part.href
      && r.value.verb == part.verb.GetOr("PUT")
      && r.value.body == Bytes(PartBody(file.content, part.pos.GetOr(0), part.size))
    ensures part.pos.GetOr(0) >= 0 && part.wantDigest.Some? && part.wantDigest.value != "" ==>
      (r.Success? <==> part.wantDigest.value == "contentMD5")
    ensures part.pos.GetOr(0) >= 0 && (part.wantDigest.None? || part.wantDigest.value == "") ==> r.Success?
    ensures r.Success? && part.wantDigest.Some? && part.wantDigest.value == "contentMD5" ==>
      var header := part.header.GetOr(map[]);
      && r.value.headers.Keys == header.Keys + {"Content-MD5"}
      && r.value.headers["Content-MD5"] == md5b64(PartBody(file.content, part.pos.GetOr(0), part.size))
      && (forall k :: k in header && k != "Content-MD5" ==> r.value.headers[k] == header[k])
    ensures r.Success? && (part.wantDigest.None? || part.wantDigest.value == "") ==>
      r.value.headers == part.header.GetOr(map[])
  {
    var pos := part.pos.GetOr(0);
    if pos < 0 then Failure(NegativeSeek(pos))
    else
      var data := PartBody(file.content, pos, part.size);
      var header := part.header.GetOr(map[]);
      if part.wantDigest.Some? && part.wantDigest.value != "" then
        match DigestHeader(data, part.wantDigest.value, md5b64)
        case Failure(e) => Failure(e)
        case Success(d) => Success(HttpCall(part.verb.GetOr("PUT"), part.href, header + d, Bytes(data)))
      else
        Success(HttpCall(part.verb.GetOr("PUT"), part.href, header, Bytes(data)))
  }

  /** With "contentMD5", the `Content-MD5` header is the digest of exactly
      the bytes the request carries. */
  lemma DigestOfSentBytes(file: File, part: Part, md5b64: seq<bv8> -> string)
    requires part.wantDigest == Some("contentMD5")
    requires PartRequest(file, part, md5b64).Success?
    ensures var call := PartRequest(file, part, md5b64).value;
      call.body.Bytes? && "Content-MD5" in call.headers && call.headers["Content-MD5"] == md5b64(call.body.bytes)
  {
  }

  /** `_send_part_request`: nothing is sent when the request cannot be built;
      otherwise it is sent, a non-2xx reply is fatal, and the reply's ETag
      header (possibly missing) is returned. */
  function SendPart(file: File, part: Part, history: seq<HttpCall>, server: Server, md5b64: seq<bv8> -> string)
    : (r: (seq<HttpCall>, Result<Option<string>, LfsFailure>))
    ensures PartRequest(file, part, md5b64).Failure? ==>
      r == (history, Failure(PartRequest(file, part, md5b64).error))
    ensures PartRequest(file, part, md5b64).Success? ==>
      && r.0 == history + [PartRequest(file, part, md5b64).value]
      && (r.1.Success? <==> 200 <= server(r.0).status < 300)
      && (r.1.Success? ==> r.1.value == HeaderGet(server(r.0).headers, "etag"))
      && (r.1.Failure? ==> r.1.error == UnexpectedStatus(PartStep, server(r.0).status, server(r.0).text))
  {
    match PartRequest(file, part, md5b64)
    case Failure(e) => (history, Failure(e))
    case Success(call) =>
      var (h, reply) := Send(history, call, server);
      Is2xxRange(reply.status);
      if Is2xx(reply.status) then (h, Success(HeaderGet(reply.headers, "etag")))
      else (h, Failure(UnexpectedStatus(PartStep, reply.status, reply.text)))
  }

  /** One entry of the commit's `parts` list. */
  datatype CompletedPart = CompletedPart(etag: Option<string>, partNumber: int)

  function CompletedPartJson(p: CompletedPart): Json {
    JObject(map[
      "ETag" := (match p.etag case Some(e) => JString(e) case None => JNull),
      "PartNumber" := JInt(p.partNumber)])
  }

  function CompletedPartsJson(ps: seq<CompletedPart>): (r: seq<Json>)
    ensures |r| == |ps|
    ensures forall i :: 0 <= i < |ps| ==> r[i] == CompletedPartJson(ps[i])
  {
    if ps == [] then [] else [CompletedPartJson(ps[0])] + CompletedPartsJson(ps[1..])
  }

  /** The JSON body of a commit request: the object's oid (null when the
      reply has none) and the completed parts. */
  function CommitBody(oid: Option<string>, completed: seq<CompletedPart>): Json {
    JObject(map[
      "oid" := (match oid case Some(o) => JString(o) case None => JNull),
      "parts" := JArray(CompletedPartsJson(completed))])
  }

  /** The parts listed by the reply, in list order. */
  function PartsOf(spec: ObjectSpec): seq<Part> {
    if spec.actions.Some? && spec.actions.value.part.Some? then spec.actions.value.part.value else []
  }

  /** `actions` is missing or empty: the object is already stored. */
  predicate AlreadyStored(spec: ObjectSpec) {
    spec.actions.None? || NoActions(spec.actions.value)
  }

  /** The number of requests sent before the first part: 1 for an init action. */
  function InitCount(spec: ObjectSpec): nat {
    if !AlreadyStored(spec) && spec.actions.value.init.Some? then 1 else 0
  }

  /** The init request: default method POST, the action's body as text. */
  function InitCall(init: Action): HttpCall {
    HttpCall(init.verb.GetOr("POST"), init.href, init.header,
             if init.body.Some? then TextBody(init.body.value) else NoBody)
  }

  /** The commit request: default method POST, `{oid, parts}` as JSON. */
  function CommitCall(c: Action, oid: Option<string>, completed: seq<CompletedPart>): HttpCall {
    HttpCall(c.verb.GetOr("POST"), c.href, c.header, JsonBody(CommitBody(oid, completed)))
  }

  /** The tail of a multipart upload once every part is sent: the commit
      action when present (non-2xx fatal), then the verify action when
      present. Earlier requests are kept as they were. */
  function CommitAndVerify(a: Actions, oid: Option<string>, size: Option<int>, completed: seq<CompletedPart>,
                           history: seq<HttpCall>, server: Server): (r: Sent)
    ensures |history| <= |r.calls| && r.calls[..|history|] == history
    ensures r.outcome.Pass? ==>
      |r.calls| == |history| + (if a.commit.Some? then 1 else 0) + (if a.verify.Some? then 1 else 0)
    ensures a.commit.Some? ==>
      |history| < |r.calls| && r.calls[|history|] == CommitCall(a.commit.value, oid, completed)
    ensures a.commit.Some? && !(200 <= server(history + [CommitCall(a.commit.value, oid, completed)]).status < 300) ==>
      var h := history + [CommitCall(a.commit.value, oid, completed)];
      r == Sent(h, Fail(UnexpectedStatus(CommitStep, server(h).status, server(h).text)))
    ensures a.verify.Some? && (a.commit.None? || 200 <= server(history + [CommitCall(a.commit.value, oid, completed)]).status < 300) ==>
      var h := if a.commit.Some? then history + [CommitCall(a.commit.value, oid, completed)] else history;
      r == VerifyObject(a.verify.value, oid, size, h, server)
    ensures r.outcome.Pass? && a.verify.Some? ==>
      && oid.Some? && size.Some?
      && r.calls[|r.calls| - 1] == VerifyCall(a.verify.value, oid.value, size.value)
      && 200 <= server(r.calls).status < 300
    ensures r.outcome.Fail? && !r.outcome.error.UnexpectedStatus? ==>
      a.verify.Some? && (oid.None? || size.None?) && r.calls == history + (if a.commit.Some? then [CommitCall(a.commit.value, oid, completed)] else [])
  {
    var h :=
      if a.commit.Some? then history + [CommitCall(a.commit.value, oid, completed)] else history;
    var reply := server(h);
    Is2xxRange(reply.status);
    if a.commit.Some? && !Is2xx(reply.status) then
      Sent(h, Fail(UnexpectedStatus(CommitStep, reply.status, reply.text)))
    else if a.verify.Some? then
      var v := VerifyObject(a.verify.value, oid, size, h, server);
      assert v.calls[..|h|] == h;
      v
    else Sent(h, Pass)
  }

  /** The sizes reported for the parts, when every part has a size. */
  predicate ReportsSizes(progress: seq<int>, parts: seq<Part>) {
    && |progress| == |parts|
    && forall k :: 0 <= k < |parts| ==> parts[k].size.Some? && progress[k] == parts[k].size.value
  }

  /** The first `count` parts went out in list order from request `n` on,
      each as its `PartRequest`, and `completed[k]` carries the ETag of the
      reply to part `k` with part number `k + 1`. */
  predicate PartsSent(file: File, parts: seq<Part>, count: nat, md5b64: seq<bv8> -> string,
                      n: nat, calls: seq<HttpCall>, completed: seq<CompletedPart>, server: Server)
    requires count <= |parts|
  {
    && n + count <= |calls|
    && |completed| == count
    && forall k :: 0 <= k < count ==>
        && PartRequest(file, parts[k], md5b64).Success?
        && calls[n + k] == PartRequest(file, parts[k], md5b64).value
        && completed[k] == CompletedPart(HeaderGet(server(calls[..n + k + 1]).headers, "etag"), k + 1)
  }

  /** Later requests do not change what the parts were sent as. */
  lemma PartsSentKept(file: File, parts: seq<Part>, count: nat, md5b64: seq<bv8> -> string,
                      n: nat, calls: seq<HttpCall>, longer: seq<HttpCall>, completed: seq<CompletedPart>, server: Server)
    requires count <= |parts|
    requires PartsSent(file, parts, count, md5b64, n, calls, completed, server)
    requires |calls| <= |longer| && longer[..|calls|] == calls
    ensures PartsSent(file, parts, count, md5b64, n, longer, completed, server)
  {
    forall j | 0 <= j <= |calls|
      ensures longer[..j] == calls[..j]
    {
      assert longer[..j] == longer[..|calls|][..j];
    }
  }

  /** Sending part `i` as its request extends what was sent by one part. */
  lemma PartsSentStep(file: File, parts: seq<Part>, i: nat, md5b64: seq<bv8> -> string,
                      n: nat, calls: seq<HttpCall>, completed: seq<CompletedPart>, server: Server)
    requires i < |parts| && |calls| == n + i
    requires PartsSent(file, parts, i, md5b64, n, calls, completed, server)
    requires PartRequest(file, parts[i], md5b64).Success?
    ensures var sent := calls + [PartRequest(file, parts[i], md5b64).value];
      PartsSent(file, parts, i + 1, md5b64, n, sent,
                completed + [CompletedPart(HeaderGet(server(sent).headers, "etag"), i + 1)], server)
  {
    var sent := calls + [PartRequest(file, parts[i], md5b64).value];
    assert sent[..|calls|] == calls;
    PartsSentKept(file, parts, i, md5b64, n, calls, sent, completed, server);
    assert sent[..n + i + 1] == sent;
  }

  /** Reporting the size of part `i` extends the sizes reported for the parts before it. */
  lemma ReportsSizesStep(progress: seq<int>, parts: seq<Part>, i: nat)
    requires i < |parts| && parts[i].size.Some?
    requires ReportsSizes(progress, parts[..i])
    ensures ReportsSizes(progress + [parts[i].size.value], parts[..i + 1])
  {
    assert parts[..i + 1] == parts[..i] + [parts[i]];
  }

  /** What the part loop did: requests sent, sizes reported, parts
      completed, and the failure that ended it early, if any. */
  datatype PartsRun = PartsRun(calls: seq<HttpCall>, progress: seq<int>, completed: seq<CompletedPart>,
                               failure: Option<LfsFailure>)

  /** The part loop from part `i` on, as a reference definition: send the
      part; a failed request or a non-2xx reply ends the loop; so does a part
      without a size when progress is reported; otherwise report its size
      and complete it with number `i + 1`. */
  function PartsFrom(file: File, parts: seq<Part>, i: nat, onProgress: bool, calls: seq<HttpCall>,
                     progress: seq<int>, completed: seq<CompletedPart>, server: Server,
                     md5b64: seq<bv8> -> string): (r: PartsRun)
    requires i <= |parts|
    ensures |calls| <= |r.calls| <= |calls| + (|parts| - i) && r.calls[..|calls|] == calls
    ensures r.failure.None? ==> |r.calls| == |calls| + (|parts| - i)
    ensures !onProgress ==> r.progress == progress
    decreases |parts| - i
  {
    if i == |parts| then PartsRun(calls, progress, completed, None)
    else
      var step := SendPart(file, parts[i], calls, server, md5b64);
      if step.1.Failure? then PartsRun(step.0, progress, completed, Some(step.1.error))
      else if onProgress && parts[i].size.None? then PartsRun(step.0, progress, completed, Some(MissingKey("size")))
      else
        var r := PartsFrom(file, parts, i + 1, onProgress, step.0,
                           if onProgress then progress + [parts[i].size.value] else progress,
                           completed + [CompletedPart(step.1.value, i + 1)], server, md5b64);
        assert r.calls[..|calls|] == r.calls[..|step.0|][..|calls|];
        r
  }

  /** The loop stopped at part `k = |completed|` with `failure`: the parts
      before it went out as their requests, and part `k` was either never
      sent (its request could not be built) or sent as its request as the
      last request, after which a non-2xx reply, or a missing size when
      progress is reported, ended the loop. */
  predicate PartFailedAt(file: File, parts: seq<Part>, md5b64: seq<bv8> -> string, n: nat,
                         calls: seq<HttpCall>, completed: seq<CompletedPart>, failure: LfsFailure,
                         onProgress: bool, server: Server)
  {
    var k := |completed|;
    && k < |parts|
    && PartsSent(file, parts, k, md5b64, n, calls, completed, server)
    && (PartRequest(file, parts[k], md5b64).Failure? ==>
          |calls| == n + k && failure == PartRequest(file, parts[k], md5b64).error)
    && (PartRequest(file, parts[k], md5b64).Success? ==>
          && |calls| == n + k + 1
          && calls[n + k] == PartRequest(file, parts[k], md5b64).value
          && (200 <= server(calls).status < 300 ==> onProgress && parts[k].size.None? && failure == MissingKey("size"))
          && (!(200 <= server(calls).status < 300) ==>
                failure == UnexpectedStatus(PartStep, server(calls).status, server(calls).text)))
  }

  /** When the part loop runs from part `i` to the end, every part went out
      as its request and, with progress, had its size reported. */
  lemma {:induction false} PartsFromCompletes(file: File, parts: seq<Part>, i: nat, onProgress: bool,
                                              calls: seq<HttpCall>, progress: seq<int>, completed: seq<CompletedPart>,
                                              server: Server, md5b64: seq<bv8> -> string, n: nat)
    requires i <= |parts| && |calls| == n + i && |completed| == i
    requires PartsSent(file, parts, i, md5b64, n, calls, completed, server)
    requires onProgress ==> ReportsSizes(progress, parts[..i])
    ensures var r := PartsFrom(file, parts, i, onProgress, calls, progress, completed, server, md5b64);
      r.failure.None? ==>
        && PartsSent(file, parts, |parts|, md5b64, n, r.calls, r.completed, server)
        && (onProgress ==> ReportsSizes(r.progress, parts))
    decreases |parts| - i
  {
    if i == |parts| {
      assert parts[..i] == parts;
    } else {
      var step := SendPart(file, parts[i], calls, server, md5b64);
      if step.1.Success? && !(onProgress && parts[i].size.None?) {
        PartsSentStep(file, parts, i, md5b64, n, calls, completed, server);
        if onProgress {
          ReportsSizesStep(progress, parts, i);
        }
        PartsFromCompletes(file, parts, i + 1, onProgress, step.0,
                           if onProgress then progress + [parts[i].size.value] else progress,
                           completed + [CompletedPart(step.1.value, i + 1)], server, md5b64, n);
      }
    }
  }

  /** When the part loop ends early, it ended at the first part that could
      not be built, got a non-2xx reply, or (with progress) had no size, and
      nothing was sent after that part. */
  lemma {:induction false} PartsFromStops(file: File, parts: seq<Part>, i: nat, onProgress: bool,
                                          calls: seq<HttpCall>, progress: seq<int>, completed: seq<CompletedPart>,
                                          server: Server, md5b64: seq<bv8> -> string, n: nat)
    requires i <= |parts| && |calls| == n + i && |completed| == i
    requires PartsSent(file, parts, i, md5b64, n, calls, completed, server)
    ensures var r := PartsFrom(file, parts, i, onProgress, calls, progress, completed, server, md5b64);
      r.failure.Some? ==> PartFailedAt(file, parts, md5b64, n, r.calls, r.completed, r.failure.value, onProgress, server)
    decreases |parts| - i
  {
    if i < |parts| {
      var step := SendPart(file, parts[i], calls, server, md5b64);
      if step.1.Failure? || (onProgress && parts[i].size.None?) {
        assert step.0[..|calls|] == calls;
        PartsSentKept(file, parts, i, md5b64, n, calls, step.0, completed, server);
      } else {
        PartsSentStep(file, parts, i, md5b64, n, calls, completed, server);
        PartsFromStops(file, parts, i + 1, onProgress, step.0,
                       if onProgress then progress + [parts[i].size.value] else progress,
                       completed + [CompletedPart(step.1.value, i + 1)], server, md5b64, n);
      }
    }
  }

  /** The part loop itself, computing `PartsFrom` from part 0. */
  method RunParts(file: File, parts: seq<Part>, onProgress: bool, history: seq<HttpCall>, server: Server,
                  md5b64: seq<bv8> -> string)
    returns (r: PartsRun)
    ensures r == PartsFrom(file, parts, 0, onProgress, history, [], [], server, md5b64)
  {
    var calls, progress, completed := history, [], [];
    var i := 0;
    while i < |parts|
      invariant 0 <= i <= |parts|
      invariant PartsFrom(file, parts, i, onProgress, calls, progress, completed, server, md5b64)
             == PartsFrom(file, parts, 0, onProgress, history, [], [], server, md5b64)
    {
      var step := SendPart(file, parts[i], calls, server, md5b64);
      if step.1.Failure? {
        return PartsRun(step.0, progress, completed, Some(step.1.error));
      }
      calls := step.0;
      if onProgress {
        if parts[i].size.None? {
          return PartsRun(calls, progress, completed, Some(MissingKey("size")));
        }
        progress := progress + [parts[i].size.value];
      }
      completed := completed + [CompletedPart(step.1.value, i + 1)];
      i := i + 1;
    }
    return PartsRun(calls, progress, completed, None);
  }

  /** The part loop of the multipart adapter: every part in list order, the
      size reported after each one when progress is asked for (a part
      without a size is then a `KeyError`), and the first failure ends the
      loop with no further request. */
  method SendParts(file: File, parts: seq<Part>, onProgress: bool, history: seq<HttpCall>, server: Server,
                   md5b64: seq<bv8> -> string)
    returns (calls: seq<HttpCall>, progress: seq<int>, completed: seq<CompletedPart>, failure: Option<LfsFailure>)
    ensures PartsRun(calls, progress, completed, failure) == PartsFrom(file, parts, 0, onProgress, history, [], [], server, md5b64)
    ensures |history| <= |calls| <= |history| + |parts| && calls[..|history|] == history
    ensures !onProgress ==> progress == []
    ensures failure.None? ==>
      && |calls| == |history| + |parts|
      && PartsSent(file, parts, |parts|, md5b64, |history|, calls, completed, server)
      && (onProgress ==> ReportsSizes(progress, parts))
    ensures failure.Some? ==> PartFailedAt(file, parts, md5b64, |history|, calls, completed, failure.value, onProgress, server)
  {
    var r := RunParts(file, parts, onProgress, history, server, md5b64);
    PartsFromCompletes(file, parts, 0, onProgress, history, [], [], server, md5b64, |history|);
    PartsFromStops(file, parts, 0, onProgress, history, [], [], server, md5b64, |history|);
    calls, progress, completed, failure := r.calls, r.progress, r.completed, r.failure;
  }

  /** The init request of a multipart upload, if the object has one. */
  function InitCalls(spec: ObjectSpec): (r: seq<HttpCall>)
    ensures |r| == InitCount(spec)
  {
    if InitCount(spec) == 1 then [InitCall(spec.actions.value.init.value)] else []
  }

  /** A multipart upload after the init step: the part loop from `before`
      on, then the commit and verify actions; a part failure ends it. */
  function AfterInit(file: File, a: Actions, oid: Option<string>, size: Option<int>, parts: seq<Part>,
                     onProgress: bool, before: seq<HttpCall>, server: Server,
                     md5b64: seq<bv8> -> string): (r: UploadRun)
    ensures var run := PartsFrom(file, parts, 0, onProgress, before, [], [], server, md5b64);
      && |before| <= |r.calls| && r.calls[..|before|] == before
      && r.progress == run.progress
      && (run.failure.Some? ==> r.calls == run.calls && r.outcome == Fail(run.failure.value))
      && (run.failure.None? ==>
            var rest := CommitAndVerify(a, oid, size, run.completed, run.calls, server);
            r.calls == rest.calls && r.outcome == rest.outcome)
    ensures r.outcome.Pass? ==>
      && |r.calls| == |before| + |parts| + (if a.commit.Some? then 1 else 0) + (if a.verify.Some? then 1 else 0)
      && (a.verify.Some? ==> oid.Some? && size.Some? && r.calls[|r.calls| - 1] == VerifyCall(a.verify.value, oid.value, size.value))
  {
    var run := PartsFrom(file, parts, 0, onProgress, before, [], [], server, md5b64);
    if run.failure.Some? then UploadRun(run.calls, run.progress, Fail(run.failure.value))
    else
      var rest := CommitAndVerify(a, oid, size, run.completed, run.calls, server);
      assert rest.calls[..|before|] == rest.calls[..|run.calls|][..|before|];
      UploadRun(rest.calls, run.progress, rest.outcome)
  }

  /** `MultipartTransferAdapter.upload` as a reference definition. With no
      (or empty) actions nothing is sent. Otherwise: the init action when
      present (a non-2xx reply ends the upload); the part loop; then the
      commit and verify actions. The abort action is never sent: on success
      every request is accounted for by init, the parts, commit and verify. */
  function MultipartRun(file: File, spec: ObjectSpec, onProgress: bool, server: Server,
                        md5b64: seq<bv8> -> string): (r: UploadRun)
    ensures AlreadyStored(spec) ==> r == UploadRun([], [], Pass)
    ensures !onProgress ==> r.progress == []
    ensures InitCount(spec) == 1 && !(200 <= server(InitCalls(spec)).status < 300) ==>
      var reply := server(InitCalls(spec));
      r == UploadRun(InitCalls(spec), [], Fail(UnexpectedStatus(InitStep, reply.status, reply.text)))
    ensures !AlreadyStored(spec) && (InitCount(spec) == 0 || 200 <= server(InitCalls(spec)).status < 300) ==>
      r == AfterInit(file, spec.actions.value, spec.oid, spec.size, PartsOf(spec), onProgress, InitCalls(spec), server, md5b64)
  {
    if AlreadyStored(spec) then UploadRun([], [], Pass)
    else
      var init := InitCalls(spec);
      var reply := server(init);
      Is2xxRange(reply.status);
      if InitCount(spec) == 1 && !Is2xx(reply.status) then
        UploadRun(init, [], Fail(UnexpectedStatus(InitStep, reply.status, reply.text)))
      else
        AfterInit(file, spec.actions.value, spec.oid, spec.size, PartsOf(spec), onProgress, init, server, md5b64)
  }

  /** The init request, when there is one, is the first request sent. */
  lemma MultipartStartsWithInit(file: File, spec: ObjectSpec, onProgress: bool, server: Server, md5b64: seq<bv8> -> string)
    requires InitCount(spec) == 1
    ensures var r := MultipartRun(file, spec, onProgress, server, md5b64);
      |r.calls| >= 1 && r.calls[0] == InitCall(spec.actions.value.init.value)
  {
    var r := MultipartRun(file, spec, onProgress, server, md5b64);
    if 200 <= server(InitCalls(spec)).status < 300 {
      assert r.calls[..1] == InitCalls(spec);
    }
  }

  /** A successful multipart upload sent init (when present), one request
      per part, commit (when present) and verify (when present), and
      nothing else: the abort action is never sent, and verify comes last. */
  lemma MultipartSendsNoAbort(file: File, spec: ObjectSpec, onProgress: bool, server: Server, md5b64: seq<bv8> -> string)
    requires !AlreadyStored(spec)
    ensures var r := MultipartRun(file, spec, onProgress, server, md5b64);
      var a := spec.actions.value;
      r.outcome.Pass? ==>
        && |r.calls| == InitCount(spec) + |PartsOf(spec)| + (if a.commit.Some? then 1 else 0) + (if a.verify.Some? then 1 else 0)
        && (a.verify.Some? ==> r.calls[|r.calls| - 1] == VerifyCall(a.verify.value, spec.oid.value, spec.size.value))
  {
  }

  /** `MultipartTransferAdapter.upload`: computes `MultipartRun`, and on
      success the parts went out in list order from just after the init
      request, each completed with its reply's ETag, followed by the commit
      of exactly those parts. */
  method MultipartUpload(file: File, spec: ObjectSpec, onProgress: bool, server: Server, md5b64: seq<bv8> -> string)
    returns (calls: seq<HttpCall>, progress: seq<int>, completed: seq<CompletedPart>, outcome: Outcome<LfsFailure>)
    ensures UploadRun(calls, progress, outcome) == MultipartRun(file, spec, onProgress, server, md5b64)
    ensures outcome.Pass? ==>
      && PartsSent(file, PartsOf(spec), |PartsOf(spec)|, md5b64, InitCount(spec), calls, completed, server)
      && (onProgress ==> ReportsSizes(progress, PartsOf(spec)))
    ensures outcome.Pass? && !AlreadyStored(spec) && spec.actions.value.commit.Some? ==>
      var k := InitCount(spec) + |PartsOf(spec)|;
      k < |calls| && calls[k] == CommitCall(spec.actions.value.commit.value, spec.oid, completed)
  {
    calls, progress, completed := [], [], [];
    if AlreadyStored(spec) {
      return calls, progress, completed, Pass;
    }
    var actions := spec.actions.value;
    calls := InitCalls(spec);
    var reply := server(calls);
    Is2xxRange(reply.status);
    if InitCount(spec) == 1 && !Is2xx(reply.status) {
      return calls, progress, completed, Fail(UnexpectedStatus(InitStep, reply.status, reply.text));
    }
    var failure;
    calls, progress, completed, failure := SendParts(file, PartsOf(spec), onProgress, calls, server, md5b64);
    if failure.Some? {
      return calls, progress, completed, Fail(failure.value);
    }
    var rest := CommitAndVerify(actions, spec.oid, spec.size, completed, calls, server);
    PartsSentKept(file, PartsOf(spec), |PartsOf(spec)|, md5b64, InitCount(spec), calls, rest.calls, completed, server);
    calls, outcome := rest.calls, rest.outcome;
  }
}

=== FILE: lfs_types.dfy ===
/** The shapes exchanged with a Git LFS server: the per-object action
    descriptors of a batch reply, the local file being transferred, and the
    errors the LFS client raises. A key missing from a reply is `None`. */
module LfsTypes {
  import opened Wrappers
  import opened Http

  /** A local file object: its bytes and its current read position. */
  datatype File = File(content: seq<bv8>, pos: nat)

  /** What `read()` returns from the current position to the end of file
      (nothing when the position is at or past the end). */
  function Remainder(f: File): (r: seq<bv8>)
    ensures f.pos <= |f.content| ==> r == f.content[f.pos..]
    ensures f.pos >= |f.content| ==> r == []
  {
    if f.pos <= |f.content| then f.content[f.pos..] else []
  }

  /** One action: where to send it, with which method (a missing method
      takes the step's default), headers and body. */
  datatype Action = Action(href: string, verb: Option<string>, header: Headers, body: Option<string>)

  /** One part of a multipart upload; every field but `href` may be missing. */
  datatype Part = Part(
    href: string,
    verb: Option<string>,
    pos: Option<int>,
    size: Option<int>,
    wantDigest: Option<string>,
    header: Option<Headers>)

  /** The `actions` object of a reply. Basic transfers use `upload`,
      `verify` and `download`; multipart transfers use `init`, the `parts`
      list of `part`, `commit`, `abort` and `verify`. */
  datatype Actions = Actions(
    upload: Option<Action>,
    verify: Option<Action>,
    download: Option<Action>,
    init: Option<Action>,
    part: Option<seq<Part>>,
    commit: Option<Action>,
    abort: Option<Action>)

  /** An empty `actions` object, which Python treats as false. */
  predicate NoActions(a: Actions) {
    a.upload.None? && a.verify.None? && a.download.None? && a.init.None?
    && a.part.None? && a.commit.None? && a.abort.None?
  }

  /** One entry of the reply's `objects` list. */
  datatype ObjectSpec = ObjectSpec(oid: Option<string>, size: Option<int>, actions: Option<Actions>)

  /** The decoded reply to a batch request. */
  datatype BatchResponse = BatchResponse(transfer: Option<string>, objects: Option<seq<ObjectSpec>>)

  /** The server's reply to a batch request; `body` is `None` when it is not
      decodable JSON. */
  datatype BatchReply = BatchReply(status: int, body: Option<BatchResponse>)

  /** The transfer steps whose replies are checked. */
  datatype Step = UploadStep | VerifyStep | InitStep | PartStep | CommitStep

  /** The errors raised by the LFS client and its adapters. */
  datatype LfsFailure =
    | LfsError(statusCode: int)                                  // batch reply other than 200
    | UndecodableReply                                           // batch reply body is not JSON
    | UnsupportedAdapter(name: string)                           // ValueError "Unsupported transfer adapter: <name>"
    | UnexpectedStatus(step: Step, statusCode: int, text: string) // RuntimeError from a transfer step
    | UnsupportedDigest(wantDigest: string)                      // RuntimeError for a `want_digest` other than contentMD5
    | MissingKey(key: string)                                    // KeyError
    | MissingObject                                              // IndexError: the reply lists no object
    | NegativeSeek(pos: int)                                     // seek to a negative position
    | ReadFailed                                                 // I/O error while hashing the file

  /** A server for the transfer requests: the reply to the last call of the
      given history (every request sent so far, the current one last). */
  type Server = seq<HttpCall> -> Response
}

=== FILE: name_utils.dfy ===
/** `split_full_name`: a full name "<entity>/<name>" split at its first '/'. */
module NameUtils {
  import opened Wrappers
  import opened Text

  /** The `ValueError` raised for a name without '/'. */
  function ParseFailure(fullName: string): string {
    "Could not parse fullname - " + fullName
  }

  /** `full_name.split("/", 1)` unpacked into two parts; with no '/' there
      is only one part and the unpacking fails. */
  function SplitFullName(fullName: string): (r: Result<(string, string), string>)
    ensures r.Failure? <==> '/' !in fullName
    ensures r.Failure? ==> r.error == ParseFailure(fullName)
    ensures r.Success? ==> r.value.0 + "/" + r.value.1 == fullName && '/' !in r.value.0
  {
    if '/' in fullName then Success((BeforeFirst(fullName, '/'), AfterFirst(fullName, '/')))
    else Failure(ParseFailure(fullName))
  }

  /** Joining an entity without '/' to any name and splitting again gives
      both parts back. */
  lemma {:induction false} SplitJoin(entity: string, name: string)
    requires '/' !in entity
    ensures SplitFullName(entity + "/" + name) == Success((entity, name))
  {
    var s := entity + "/" + name;
    assert s[|entity|] == '/';
    var e := SplitFullName(s).value.0;
    assert e == s[..|e|];
    assert |e| == |entity|;
    assert e == entity;
  }

  /** Empty parts are allowed, and only the first '/' splits. */
  lemma SplitExamples()
    ensures SplitFullName("/x") == Success(("", "x"))
    ensures SplitFullName("x/") == Success(("x", ""))
    ensures SplitFullName("org/model/v2") == Success(("org", "model/v2"))
  {
    assert "/x" == "" + "/" + "x";
    SplitJoin("", "x");
    assert "x/" == "x" + "/" + "";
    SplitJoin("x", "");
    assert "org/model/v2" == "org" + "/" + "model/v2";
    SplitJoin("org", "model/v2");
  }

  /** A name without '/' is refused with its text in the message. */
  lemma NoSlashRefused()
    ensures SplitFullName("model") == Failure("Could not parse fullname - model")
  {
    assert forall i :: 0 <= i < |"model"| ==> "model"[i] != '/';
    assert '/' !in "model";
    assert ParseFailure("model") == "Could not parse fullname - model";
  }
}

=== FILE: prediction.dfy ===
/** The prediction endpoint client: its own status check, which carries
    the parsed error payload and also accepts `text/html`, and `infer`,
    which checks the endpoint, builds the URL and merges the headers. */
module Prediction {
  import opened Wrappers
  import opened Text
  import opened Http
  import opened ApiClient

  const PredictionFailed: string := "Prediction request failed."

  /** `_raise_for_status` of the prediction client. */
  function RaiseForPredictionStatus(resp: Response, decode: string -> Option<Json>): (r: Outcome<ApiError>)
    ensures r.Fail? <==> IsErrorStatus(resp.status)
    ensures r.Fail? ==> !r.error.OutpostHttpException?
    ensures r.Fail? && r.error.PredictionHttpException? ==> r.error.statusCode == resp.status
    ensures r.Fail? && r.error.PredictionHttpException? && r.error.data.Some? ==>
      r.error.message == "Prediction request failed." && decode(resp.text) == r.error.data
  {
    if !IsErrorStatus(resp.status) then Pass
    else if "content-type" !in resp.headers then Fail(MissingHeader("content-type"))
    else
      var mediaType := MediaType(resp.headers["content-type"]);
      if mediaType == "application/json" then
        match decode(resp.text)
        case Some(data) => Fail(PredictionHttpException(resp.status, PredictionFailed, Some(data)))
        case None => Fail(OutpostError(DecodeFailure))
      else if mediaType == "text/plain" || mediaType == "text/html" then
        Fail(PredictionHttpException(resp.status, resp.text, None))
      else
        Fail(PredictionHttpException(resp.status, UnhandledMessage(mediaType), None))
  }

  /** A decodable JSON body, an object or any other value, is carried as the
      exception's data; an undecodable one is a decode error instead. */
  lemma PredictionJsonPayload(resp: Response, decode: string -> Option<Json>)
    requires IsErrorStatus(resp.status)
    requires "content-type" in resp.headers && MediaType(resp.headers["content-type"]) == "application/json"
    ensures decode(resp.text).Some? ==>
      RaiseForPredictionStatus(resp, decode)
        == Fail(PredictionHttpException(resp.status, "Prediction request failed.", decode(resp.text)))
    ensures decode(resp.text).None? ==>
      RaiseForPredictionStatus(resp, decode) == Fail(OutpostError("Failed to decode json body."))
  {
  }

  /** `text/plain` and `text/html` carry the raw body text; any other media
      type (compared case-sensitively) names itself as unhandled. */
  lemma PredictionTextBodies(resp: Response, decode: string -> Option<Json>)
    requires IsErrorStatus(resp.status) && "content-type" in resp.headers
    ensures var mt := MediaType(resp.headers["content-type"]);
      mt == "text/plain" || mt == "text/html" ==>
      RaiseForPredictionStatus(resp, decode) == Fail(PredictionHttpException(resp.status, resp.text, None))
    ensures var mt := MediaType(resp.headers["content-type"]);
      mt != "text/plain" && mt != "text/html" && mt != "application/json" ==>
      RaiseForPredictionStatus(resp, decode)
        == Fail(PredictionHttpException(resp.status, "Request failed. Unhandled Content Type: " + mt, None))
  {
  }

  /** The two status checks agree on which responses fail and differ only in
      the exception kind and in the `text/html` case. */
  lemma StatusChecksAgreeOnFailure(resp: Response, decode: string -> Option<Json>)
    ensures RaiseForPredictionStatus(resp, decode).Fail? <==> RaiseForStatus(resp, decode).Fail?
    ensures RaiseForStatus(resp, decode).Fail? && RaiseForStatus(resp, decode).error.OutpostError? <==>
            RaiseForPredictionStatus(resp, decode).Fail? && RaiseForPredictionStatus(resp, decode).error.OutpostError?
  {
  }

  /** A configured predictor; `apiToken` is the client's token. */
  datatype Predictor = Predictor(endpoint: Option<string>, predictionPath: string, apiToken: Option<string>)

  /** What `infer` did: the request it sent, if any, and its outcome. */
  datatype Inference = Inference(sent: Option<HttpCall>, outcome: Result<Response, ApiError>)

  /** The headers of an inference request: the bearer header first, then the
      caller's headers, which win on an equal key. */
  function InferHeaders(apiToken: Option<string>, added: Option<Headers>): (h: Headers)
    ensures "authorization" in h
    ensures added.Some? && "authorization" in added.value ==> h["authorization"] == added.value["authorization"]
    ensures added.None? || "authorization" !in added.value ==> h["authorization"] == "Bearer " + PyStr(apiToken)
    ensures added.Some? ==> forall k :: k in added.value ==> k in h && h[k] == added.value[k]
    ensures forall k :: k in h ==> k == "authorization" || (added.Some? && k in added.value)
  {
    map["authorization" := "Bearer " + PyStr(apiToken)] + added.GetOr(map[])
  }

  /** `Predictor.infer`: `post` is the server's reply to the POST request. */
  function Infer(p: Predictor, added: Option<Headers>, body: Body,
                 post: HttpCall -> Response, decode: string -> Option<Json>): (r: Inference)
    ensures p.endpoint.None? <==> r.sent.None?
    ensures p.endpoint.None? ==> r.outcome == Failure(OutpostError("No endpoint configured"))
    ensures p.endpoint.Some? ==>
      && r.sent.value.verb == "POST"
      && r.sent.value.url == p.endpoint.value + p.predictionPath
      && r.sent.value.headers == InferHeaders(p.apiToken, added)
    ensures p.endpoint.Some? ==> r.sent.value.body == body
    ensures p.endpoint.Some? ==>
      var resp := post(r.sent.value);
      && (r.outcome.Success? <==> !IsErrorStatus(resp.status))
      && (r.outcome.Success? ==> r.outcome.value == resp)
      && (r.outcome.Failure? ==> RaiseForPredictionStatus(resp, decode) == Fail(r.outcome.error))
  {
    match p.endpoint
    case None => Inference(None, Failure(OutpostError("No endpoint configured")))
    case Some(endpoint) =>
      var call := HttpCall("POST", endpoint + p.predictionPath, InferHeaders(p.apiToken, added), body);
      var resp := post(call);
      match RaiseForPredictionStatus(resp, decode)
      case Pass => Inference(Some(call), Success(resp))
      case Fail(e) => Inference(Some(call), Failure(e))
  }

  /** An inference fails exactly when the API client's own status check
      would fail on the reply: the two checks differ only in what they
      raise. */
  lemma InferFailsLikeClientCheck(p: Predictor, added: Option<Headers>, body: Body,
                                  post: HttpCall -> Response, decode: string -> Option<Json>)
    requires p.endpoint.Some?
    ensures var r := Infer(p, added, body, post, decode);
      r.outcome.Failure? <==> RaiseForStatus(post(r.sent.value), decode).Fail?
  {
    var r := Infer(p, added, body, post, decode);
    StatusChecksAgreeOnFailure(post(r.sent.value), decode);
  }
}

=== FILE: retry.dfy ===
/** The retrying transport of the API client: the retry policy (which
    methods and status codes are retried, and how long to sleep in between)
    and the bounded retry loop around a wrapped transport. The wrapped
    transport is an oracle `wrapped(n)` giving the response to the n-th call
    (0-based); the wall clock and the random jitter sign are inputs too. */
module Retry {
  import opened Wrappers
  import opened Text
  import opened Http

  const DefaultRetryableMethods: set<string> := {"HEAD", "GET", "PUT", "DELETE", "OPTIONS", "TRACE"}
  const DefaultRetryStatusCodes: set<int> := {429, 503, 504}  // Too Many Requests, Service Unavailable, Gateway Timeout
  const DefaultMaxAttempts: int := 10
  const DefaultMaxBackoffWait: real := 60.0
  const DefaultBackoffFactor: real := 0.1
  const DefaultJitterRatio: real := 0.1

  datatype RetryTransport = RetryTransport(
    maxAttempts: int,
    maxBackoffWait: real,
    backoffFactor: real,
    jitterRatio: real,
    retryableMethods: set<string>,
    retryStatusCodes: set<int>)

  /** The `ValueError` of the constructor. */
  datatype ConfigError = JitterRatioOutOfRange(jitterRatio: real)

  /** The `ValueError` that `time.sleep` raises for a negative delay. */
  datatype TransportError = NegativeSleep(delay: real)

  /** The random `choice([1, -1])` that signs the jitter. */
  datatype Sign = Plus | Minus

  function SignValue(s: Sign): real {
    match s
    case Plus => 1.0
    case Minus => -1.0
  }

  function Min(a: real, b: real): real {
    if a <= b then a else b
  }

  function MaxInt(a: int, b: int): int {
    if a >= b then a else b
  }

  predicate ValidJitterRatio(j: real) {
    0.0 <= j <= 0.5
  }

  /** `frozenset(given) if given else default`: a missing or empty
      collection falls back to the default, any other replaces it. */
  function SetOrDefault<T(==,!new)>(given: Option<seq<T>>, default: set<T>): (r: set<T>)
    ensures given.Some? && given.value != [] ==> forall x :: x in r <==> x in given.value
    ensures given.None? || given.value == [] ==> r == default
  {
    if given.Some? && given.value != [] then set x | x in given.value else default
  }

  /** The constructor: rejects a jitter ratio outside [0, 0.5] and keeps
      every other setting as given. */
  function NewRetryTransport(
    maxAttempts: int,
    maxBackoffWait: real,
    backoffFactor: real,
    jitterRatio: real,
    retryableMethods: Option<seq<string>>,
    retryStatusCodes: Option<seq<int>>): (r: Result<RetryTransport, ConfigError>)
    ensures r.Failure? <==> !ValidJitterRatio(jitterRatio)
    ensures r.Failure? ==> r.error == JitterRatioOutOfRange(jitterRatio)
    ensures r.Success? ==>
      && ValidJitterRatio(r.value.jitterRatio)
      && r.value.maxAttempts == maxAttempts
      && r.value.maxBackoffWait == maxBackoffWait
      && r.value.backoffFactor == backoffFactor
      && r.value.jitterRatio == jitterRatio
      && r.value.retryableMethods == SetOrDefault(retryableMethods, DefaultRetryableMethods)
      && r.value.retryStatusCodes == SetOrDefault(retryStatusCodes, DefaultRetryStatusCodes)
  {
    if jitterRatio < 0.0 || jitterRatio > 0.5 then
      Failure(JitterRatioOutOfRange(jitterRatio))
    else
      Success(RetryTransport(
        maxAttempts, maxBackoffWait, backoffFactor, jitterRatio,
        SetOrDefault(retryableMethods, DefaultRetryableMethods),
        SetOrDefault(retryStatusCodes, DefaultRetryStatusCodes)))
  }

  /** Only the members of the method and status collections matter: their
      order and repetitions do not, and an empty collection means the
      default, like a missing one. */
  lemma RetrySettingsAsSets(maxAttempts: int, maxBackoffWait: real, backoffFactor: real, jitterRatio: real,
                            methods1: seq<string>, methods2: seq<string>, codes1: seq<int>, codes2: seq<int>)
    requires forall m :: m in methods1 <==> m in methods2
    requires forall c :: c in codes1 <==> c in codes2
    ensures NewRetryTransport(maxAttempts, maxBackoffWait, backoffFactor, jitterRatio, Some(methods1), Some(codes1))
         == NewRetryTransport(maxAttempts, maxBackoffWait, backoffFactor, jitterRatio, Some(methods2), Some(codes2))
    ensures NewRetryTransport(maxAttempts, maxBackoffWait, backoffFactor, jitterRatio, Some([]), Some([]))
         == NewRetryTransport(maxAttempts, maxBackoffWait, backoffFactor, jitterRatio, None, None)
  {
    if methods1 != [] { assert methods1[0] in methods2; }
    if methods2 != [] { assert methods2[0] in methods1; }
    if codes1 != [] { var x := codes1[0]; assert x in codes1; assert x in codes2; }
    if codes2 != [] { var x := codes2[0]; assert x in codes2; assert x in codes1; }
    assert SetOrDefault(Some(methods1), DefaultRetryableMethods) == SetOrDefault(Some(methods2), DefaultRetryableMethods);
    var s1, s2 := SetOrDefault(Some(codes1), DefaultRetryStatusCodes), SetOrDefault(Some(codes2), DefaultRetryStatusCodes);
    if codes1 != [] {
      forall x: int
        ensures x in s1 <==> x in s2
      {
        assert x in s1 <==> x in codes1;
      }
    }
    assert s1 == s2;
  }

  /** The transport built with every default: 10 attempts, at most 60 s of
      sleep, backoff factor 0.1, jitter ratio 0.1. */
  function DefaultRetryTransport(): (t: RetryTransport)
    ensures t.maxAttempts == 10 && t.jitterRatio == 0.1 && t.backoffFactor == 0.1 && t.maxBackoffWait == 60.0
    ensures t.retryableMethods == {"HEAD", "GET", "PUT", "DELETE", "OPTIONS", "TRACE"}
    ensures "POST" !in t.retryableMethods && "PATCH" !in t.retryableMethods
    ensures t.retryStatusCodes == {429, 503, 504}
  {
    NewRetryTransport(DefaultMaxAttempts, DefaultMaxBackoffWait, DefaultBackoffFactor, DefaultJitterRatio, None, None).value
  }

  /** Both ends of the accepted jitter range are accepted; values just outside are not. */
  lemma JitterRatioBoundaries()
    ensures NewRetryTransport(10, 60.0, 0.1, 0.0, None, None).Success?
    ensures NewRetryTransport(10, 60.0, 0.1, 0.5, None, None).Success?
    ensures NewRetryTransport(10, 60.0, 0.1, 0.6, None, None).Failure?
    ensures NewRetryTransport(10, 60.0, 0.1, -0.1, None, None).Failure?
  {
  }

  function Pow2(n: nat): (r: nat)
    ensures r >= 1
  {
    if n == 0 then 1 else 2 * Pow2(n - 1)
  }

  /** Python's `2 ** e` for any integer exponent. */
  function TwoPow(e: int): (r: real)
    ensures r > 0.0
  {
    if e >= 0 then Pow2(e) as real else 1.0 / (Pow2(-e) as real)
  }

  /** The stripped `Retry-After` header, "" when absent. */
  function RetryAfter(headers: Headers): string {
    Strip(HeaderGet(headers, "retry-after").GetOr(""))
  }

  /** The exponential backoff before jitter: `backoff_factor * 2 ** (attempts_made - 1)`. */
  function Backoff(t: RetryTransport, attemptsMade: int): real {
    t.backoffFactor * TwoPow(attemptsMade - 1)
  }

  /** `Retry-After` names an instant in the future (and is not a number of seconds). */
  predicate RetryAfterInFuture(h: string, now: real, parseIso: string -> Option<real>) {
    h != "" && !IsDigits(h) && parseIso(h).Some? && parseIso(h).value - now > 0.0
  }

  /** The jittered exponential backoff, `backoff + backoff * jitter_ratio * sign`. */
  function JitteredBackoff(t: RetryTransport, attemptsMade: int, sign: Sign): real {
    var backoff := Backoff(t, attemptsMade);
    var jitter := backoff * t.jitterRatio;
    match sign
    case Plus => backoff + jitter
    case Minus => backoff - jitter
  }

  /** For a non-negative backoff factor the jitter moves the backoff by at
      most `jitter_ratio` of itself in either direction. */
  lemma JitterBounds(t: RetryTransport, attemptsMade: int, sign: Sign)
    requires t.backoffFactor >= 0.0 && ValidJitterRatio(t.jitterRatio)
    ensures var b := Backoff(t, attemptsMade);
      && b * (1.0 - t.jitterRatio) <= JitteredBackoff(t, attemptsMade, sign) <= b * (1.0 + t.jitterRatio)
      && JitteredBackoff(t, attemptsMade, sign) == b * (1.0 + t.jitterRatio * SignValue(sign))
      && JitteredBackoff(t, attemptsMade, sign) >= 0.0
  {
    var b := Backoff(t, attemptsMade);
    var j := t.jitterRatio;
    assert b >= 0.0 by {
      assert TwoPow(attemptsMade - 1) > 0.0;
    }
    assert 0.0 <= b * j <= b * 0.5;
    assert b * (1.0 - j) == b - b * j;
    assert b * (1.0 + j) == b + b * j;
    match sign
    case Plus =>
      assert b * (1.0 + j * SignValue(sign)) == b + b * j;
    case Minus =>
      assert JitteredBackoff(t, attemptsMade, sign) == b - b * j;
      assert j * SignValue(sign) == -j;
      assert b * (1.0 + -j) == b - b * j;
  }

  /** The delay before the next attempt. `parseIso` stands for
      `datetime.fromisoformat(...).astimezone()` (the instant in seconds, or
      `None` where it raises `ValueError`) and `now` for the wall clock. */
  function CalculateSleep(
    t: RetryTransport, attemptsMade: int, headers: Headers,
    now: real, parseIso: string -> Option<real>, sign: Sign): (r: real)
    ensures t.backoffFactor >= 0.0 && ValidJitterRatio(t.jitterRatio) && t.maxBackoffWait >= 0.0 ==> r >= 0.0
  {
    var h := RetryAfter(headers);
    if IsDigits(h) then
      DigitsValue(h) as real
    else if RetryAfterInFuture(h, now, parseIso) then
      Min(parseIso(h).value - now, t.maxBackoffWait)
    else
      assert t.backoffFactor >= 0.0 && ValidJitterRatio(t.jitterRatio) ==> JitteredBackoff(t, attemptsMade, sign) >= 0.0 by {
        if t.backoffFactor >= 0.0 && ValidJitterRatio(t.jitterRatio) {
          JitterBounds(t, attemptsMade, sign);
        }
      }
      Min(JitteredBackoff(t, attemptsMade, sign), t.maxBackoffWait)
  }

  /** A `Retry-After` of digits, whatever whitespace surrounds it, is slept
      for exactly that many seconds: neither the backoff settings nor the
      `max_backoff_wait` cap apply. */
  lemma RetryAfterSecondsExact(
    t: RetryTransport, attemptsMade: int, headers: Headers,
    now: real, parseIso: string -> Option<real>, sign: Sign,
    pre: string, digits: string, post: string)
    requires forall i :: 0 <= i < |pre| ==> IsSpace(pre[i])
    requires forall i :: 0 <= i < |post| ==> IsSpace(post[i])
    requires IsDigits(digits)
    requires "retry-after" in headers && headers["retry-after"] == pre + digits + post
    ensures CalculateSleep(t, attemptsMade, headers, now, parseIso, sign) == DigitsValue(digits) as real
  {
    assert !IsSpace(digits[0]) && !IsSpace(digits[|digits| - 1]);
    StripPadded(pre, digits, post);
  }

  /** A `Retry-After` date in the future is slept until, but never longer
      than `max_backoff_wait`. */
  lemma RetryAfterDateCapped(
    t: RetryTransport, attemptsMade: int, headers: Headers,
    now: real, parseIso: string -> Option<real>, sign: Sign)
    requires RetryAfterInFuture(RetryAfter(headers), now, parseIso)
    ensures var r := CalculateSleep(t, attemptsMade, headers, now, parseIso, sign);
      && r <= t.maxBackoffWait
      && r <= parseIso(RetryAfter(headers)).value - now
      && (r == t.maxBackoffWait || r == parseIso(RetryAfter(headers)).value - now)
  {
  }

  /** Without a usable `Retry-After` (absent, unparsable, or a date that is
      not in the future) the sleep is the jittered exponential backoff,
      capped at `max_backoff_wait`, and lies between the two jitter extremes. */
  lemma BackoffWithinJitterBounds(
    t: RetryTransport, attemptsMade: int, headers: Headers,
    now: real, parseIso: string -> Option<real>, sign: Sign)
    requires !IsDigits(RetryAfter(headers)) && !RetryAfterInFuture(RetryAfter(headers), now, parseIso)
    requires t.backoffFactor >= 0.0 && ValidJitterRatio(t.jitterRatio)
    ensures var r := CalculateSleep(t, attemptsMade, headers, now, parseIso, sign);
      var b := Backoff(t, attemptsMade);
      && Min(b * (1.0 - t.jitterRatio), t.maxBackoffWait) <= r <= Min(b * (1.0 + t.jitterRatio), t.maxBackoffWait)
      && r == Min(b * (1.0 + t.jitterRatio * SignValue(sign)), t.maxBackoffWait)
  {
    JitterBounds(t, attemptsMade, sign);
  }

  /** The retry loop of `handle_request` once the method is known to be
      retryable: call again while the status is retryable and attempts
      remain. `delay(k)` is the delay the policy computes after the
      (k+1)-th response. Each discarded response is closed (its index
      recorded in `closed`) before sleeping; `sleeps` records each
      completed sleep. */
  method RetryLoop(t: RetryTransport, wrapped: nat -> Response, delay: nat -> real)
    returns (attempts: nat, closed: seq<nat>, sleeps: seq<real>, outcome: Result<Response, TransportError>)
    ensures 1 <= attempts <= MaxInt(1, t.maxAttempts)
    ensures forall i :: 0 <= i < attempts - 1 ==> wrapped(i).status in t.retryStatusCodes
    ensures |sleeps| == attempts - 1
    ensures forall i :: 0 <= i < |sleeps| ==> sleeps[i] == delay(i) && sleeps[i] >= 0.0
    ensures |closed| == (if outcome.Success? then attempts - 1 else attempts)
    ensures forall i :: 0 <= i < |closed| ==> closed[i] == i
    ensures outcome.Success? ==>
      && outcome.value == wrapped(attempts - 1)
      && (wrapped(attempts - 1).status !in t.retryStatusCodes || attempts == MaxInt(1, t.maxAttempts))
    ensures outcome.Failure? ==>
      && attempts < MaxInt(1, t.maxAttempts)
      && wrapped(attempts - 1).status in t.retryStatusCodes
      && outcome.error.delay < 0.0
      && outcome.error.delay == delay(attempts - 1)
  {
    var response := wrapped(0);
    attempts, closed, sleeps := 1, [], [];
    var remaining := t.maxAttempts - 1;
    while remaining >= 1 && response.status in t.retryStatusCodes
      invariant attempts + remaining == t.maxAttempts
      invariant 1 <= attempts <= MaxInt(1, t.maxAttempts)
      invariant response == wrapped(attempts - 1)
      invariant forall i :: 0 <= i < attempts - 1 ==> wrapped(i).status in t.retryStatusCodes
      invariant |closed| == attempts - 1 && forall i :: 0 <= i < |closed| ==> closed[i] == i
      invariant |sleeps| == attempts - 1
      invariant forall i :: 0 <= i < |sleeps| ==> sleeps[i] == delay(i) && sleeps[i] >= 0.0
      decreases remaining
    {
      closed := closed + [attempts - 1];
      var d := delay(attempts - 1);
      if d < 0.0 {
        return attempts, closed, sleeps, Failure(NegativeSleep(d));
      }
      sleeps := sleeps + [d];
      response := wrapped(attempts);
      attempts := attempts + 1;
      remaining := remaining - 1;
    }
    outcome := Success(response);
  }

  /** The policy's delay after the (k+1)-th response: computed from that
      response's headers, with k + 1 attempts made, at the clock reading and
      jitter sign of that moment. */
  function SleepAfter(t: RetryTransport, wrapped: nat -> Response, clock: nat -> real,
                      jitter: nat -> Sign, parseIso: string -> Option<real>, k: nat): real {
    CalculateSleep(t, k + 1, wrapped(k).headers, clock(k), parseIso, jitter(k))
  }

  /** `handle_request`: one call to the wrapped transport and, for a
      retryable method, the retry loop, sleeping after the (k+1)-th
      response for the policy's delay computed from that response's
      headers, the clock and the jitter sign at that point. */
  method HandleRequest(
    t: RetryTransport, request: HttpCall, wrapped: nat -> Response,
    clock: nat -> real, jitter: nat -> Sign, parseIso: string -> Option<real>)
    returns (attempts: nat, closed: seq<nat>, sleeps: seq<real>, outcome: Result<Response, TransportError>)
    ensures 1 <= attempts <= MaxInt(1, t.maxAttempts)
    ensures request.verb !in t.retryableMethods ==>
      attempts == 1 && closed == [] && sleeps == [] && outcome == Success(wrapped(0))
    ensures forall i :: 0 <= i < attempts - 1 ==> wrapped(i).status in t.retryStatusCodes
    ensures |sleeps| == attempts - 1
    ensures forall i :: 0 <= i < |sleeps| ==>
      sleeps[i] == SleepAfter(t, wrapped, clock, jitter, parseIso, i) && sleeps[i] >= 0.0
    ensures |closed| == (if outcome.Success? then attempts - 1 else attempts)
    ensures forall i :: 0 <= i < |closed| ==> closed[i] == i
    ensures outcome.Success? ==> outcome.value == wrapped(attempts - 1)
    ensures outcome.Success? && request.verb in t.retryableMethods ==>
      wrapped(attempts - 1).status !in t.retryStatusCodes || attempts == MaxInt(1, t.maxAttempts)
    ensures outcome.Failure? ==>
      && request.verb in t.retryableMethods
      && attempts < MaxInt(1, t.maxAttempts)
      && wrapped(attempts - 1).status in t.retryStatusCodes
      && outcome.error.delay < 0.0
      && outcome.error.delay == SleepAfter(t, wrapped, clock, jitter, parseIso, attempts - 1)
  {
    if request.verb in t.retryableMethods {
      attempts, closed, sleeps, outcome := RetryLoop(t, wrapped, (k: nat) => SleepAfter(t, wrapped, clock, jitter, parseIso, k));
    } else {
      attempts, closed, sleeps, outcome := 1, [], [], Success(wrapped(0));
    }
  }
}

=== FILE: text.dfy ===
/** String helpers with Python's semantics for the few `str` methods the
    client relies on: `strip()`, `isdigit()`, `lower()`, `partition()`,
    `rstrip(ch)` and `"sep".join(...)`. */
module Text {

  /** Python's `str.isspace()`: ASCII whitespace, the information
      separators 0x1C-0x1F and the Unicode space characters. */
  predicate IsSpace(c: char) {
    || ('\t' <= c <= '\r')
    || ('\U{1C}' <= c <= '\U{1F}')
    || c == ' '
    || c == '\U{85}'
    || c == '\U{A0}'
    || c == '\U{1680}'
    || ('\U{2000}' <= c <= '\U{200A}')
    || c == '\U{2028}'
    || c == '\U{2029}'
    || c == '\U{202F}'
    || c == '\U{205F}'
    || c == '\U{3000}'
  }

  /** `s.strip()`: drops the leading and the trailing whitespace. */
  function Strip(s: string): string {
    if |s| > 0 && IsSpace(s[0]) then Strip(s[1..])
    else if |s| > 0 && IsSpace(s[|s| - 1]) then Strip(s[..|s| - 1])
    else s
  }

  /** `strip()` never grows its argument and leaves no whitespace at either
      end of its result. */
  lemma {:induction false} StripTrims(s: string)
    ensures var r := Strip(s);
      && |r| <= |s|
      && (r == [] || (!IsSpace(r[0]) && !IsSpace(r[|r| - 1])))
  {
    if |s| > 0 && IsSpace(s[0]) {
      StripTrims(s[1..]);
    } else if |s| > 0 && IsSpace(s[|s| - 1]) {
      StripTrims(s[..|s| - 1]);
    }
  }

  /** Whitespace added around a word with no whitespace at its ends is
      exactly what `strip()` removes. */
  lemma {:induction false} StripPadded(pre: string, w: string, post: string)
    requires forall i :: 0 <= i < |pre| ==> IsSpace(pre[i])
    requires forall i :: 0 <= i < |post| ==> IsSpace(post[i])
    requires w != [] && !IsSpace(w[0]) && !IsSpace(w[|w| - 1])
    ensures Strip(pre + w + post) == w
  {
    if pre != [] {
      assert (pre + w + post)[1..] == pre[1..] + w + post;
      StripPadded(pre[1..], w, post);
    } else if post != [] {
      var p := post[..|post| - 1];
      assert pre + w + post == w + post;
      assert (w + post)[0] == w[0];
      assert (w + post)[..|w + post| - 1] == [] + w + p;
      StripPadded([], w, p);
    } else {
      assert pre + w + post == w;
    }
  }

  predicate IsDigit(c: char) {
    '0' <= c <= '9'
  }

  /** `s.isdigit()` restricted to ASCII digits: true only for a non-empty run of digits. */
  predicate IsDigits(s: string) {
    |s| > 0 && forall i :: 0 <= i < |s| ==> IsDigit(s[i])
  }

  /** The decimal value of a run of ASCII digits (leading zeros allowed). */
  function DigitsValue(s: string): nat
    requires forall i :: 0 <= i < |s| ==> IsDigit(s[i])
  {
    if s == [] then 0
    else
      assert IsDigit(s[|s| - 1]);
      10 * DigitsValue(s[..|s| - 1]) + (s[|s| - 1] as int - '0' as int)
  }

  function AsciiLowerChar(c: char): char {
    if 'A' <= c <= 'Z' then (c as int + 32) as char else c
  }

  /** `s.lower()` on the ASCII letters; other characters are kept. */
  function AsciiLower(s: string): (r: string)
    ensures |r| == |s|
    ensures forall i :: 0 <= i < |s| ==> r[i] == AsciiLowerChar(s[i])
  {
    if s == [] then [] else [AsciiLowerChar(s[0])] + AsciiLower(s[1..])
  }

  /** The head of `s.partition(sep)`: the text before the first `sep`,
      or all of `s` when `sep` does not occur. */
  function BeforeFirst(s: string, sep: char): (r: string)
    ensures |r| <= |s| && r == s[..|r|]
    ensures sep !in r
    ensures |r| < |s| ==> s[|r|] == sep
  {
    if s == [] || s[0] == sep then [] else [s[0]] + BeforeFirst(s[1..], sep)
  }

  /** The tail of `s.split(sep, 1)` when `sep` occurs: everything after the first `sep`. */
  function AfterFirst(s: string, sep: char): (r: string)
    requires sep in s
    ensures s == BeforeFirst(s, sep) + [sep] + r
  {
    var n := |BeforeFirst(s, sep)|;
    s[n + 1..]
  }

  /** `s.rstrip(ch)`: drops every trailing `ch`. */
  function RStripChar(s: string, ch: char): (r: string)
    ensures |r| <= |s| && r == s[..|r|]
    ensures forall i :: |r| <= i < |s| ==> s[i] == ch
    ensures r == [] || r[|r| - 1] != ch
  {
    if |s| > 0 && s[|s| - 1] == ch then RStripChar(s[..|s| - 1], ch) else s
  }

  /** `sep.join(parts)`. */
  function Join(parts: seq<string>, sep: string): string {
    if parts == [] then ""
    else if |parts| == 1 then parts[0]
    else parts[0] + sep + Join(parts[1..], sep)
  }

  lemma JoinThree(a: string, b: string, c: string, sep: string)
    ensures Join([a, b, c], sep) == a + sep + b + sep + c
  {
    assert [a, b, c][1..] == [b, c];
    assert [b, c][1..] == [c];
    assert Join([b, c], sep) == b + sep + c;
    assert a + sep + (b + sep + c) == a + sep + b + sep + c;
  }
}

=== FILE: wrappers.dfy ===
/** Failure-compatible result types shared by every module of the model.
    A Python `None` becomes `None`, a raised exception becomes `Failure`/`Fail`. */
module Wrappers {

  datatype Option<+T> = None | Some(value: T) {
    function GetOr(default: T): T {
      match this
      case Some(v) => v
      case None => default
    }
  }

  /** A value or the exception that was raised instead of producing it. */
  datatype Result<+R, +E> = Success(value: R) | Failure(error: E) {
    predicate IsFailure() {
      Failure?
    }

    function PropagateFailure<U>(): Result<U, E>
      requires Failure?
    {
      Failure(error)
    }

    function Extract(): R
      requires Success?
    {
      value
    }
  }

  /** A procedure that returns nothing, or the exception it raised. */
  datatype Outcome<+E> = Pass | Fail(error: E)
}
